=== FILE: README.md ===
# Line validation: a Dafny model of the file matcher

The File Analysis Tool takes two lists: identifiers ("line numbers" such as
`001-001-001`) and filenames. For each identifier it reports whether a `.upvf`
file and a `.upvc` file exist for it. The tool works in these steps:

- Each identifier is reduced to a prefix: the text up to and including its
  second hyphen, or the identifier plus `-` when it has fewer than two hyphens.
- Identifiers are deduplicated by prefix; the first occurrence wins.
- Each filename is classified by its case-insensitive extension.
- Each classified filename goes into the bucket of the first retained
  identifier whose prefix (without its trailing hyphen) starts the filename's
  base name. A filename with no such identifier is kept as an orphan.
- Each retained identifier gets one record with a four-way status, and the run
  gets summary counters.

The page can also tally and filter the records by status and export them as
CSV. An uploaded file is turned into the two input columns by
`parseFileContent`.

The project has five modules:

- `JsString` (`js_string.dfy`) holds the JavaScript string built-ins the code
  relies on: `trim` over the ECMAScript white-space set, `split` on one
  character, `split(/\s+/)`, `join`, ASCII `toLowerCase` and `includes`.
- `Matcher` (`matcher.dfy`) covers `parseData`, `extractPrefix` and
  `analyzeFiles` of the analysis page.
  - `analyzeFiles` is written twice. `Analyze` is a function over values and
    serves as the specification. `AnalyzeFiles` is a method that performs the
    same loops and counter updates as the page and is proved equal to it.
  - The lemmas about `Analyze` state what the page promises: how records are
    built, the counters, conservation of filenames, and the first-match rule.
- `Report` (`report.dfy`) covers `resultCounts`, `filteredResults` and the CSV
  text of `downloadResults`.
- `Loader` (`loader.dfy`) covers `parseFileContent` of the upload component.
- `Scenarios` (`scenarios.dfy`) holds concrete runs proved from the general
  lemmas: the page's sample data, the first-match rule, a malformed filename,
  and the two branches of the loader.

Two behaviours of the code are easy to misread, and the model keeps both:

- Identifiers collapse by prefix. For example, `001-001-001`, `001-001-002`
  and `001-001-003` share the prefix `001-001-`, so only the first is
  retained and the other two count as duplicates. The record of
  `001-001-001` then lists `001-001-002.upvf` as well. `Scenarios.SampleRun`
  proves this on the page's own sample data.
- The `blankLines` counter is always 0. `parseData` has already dropped empty
  lines before the filter that would count them (`Matcher.AnalyzeStats`).

## Model

| member | source | states |
|---|---|---|
| JsString.Trim | src/pages/Index.tsx:60 | `trim()` removes ECMAScript white space from both ends and never lengthens the text; `TrimShape` determines the result |
| JsString.TrimShape | src/pages/Index.tsx:60 | the result is one contiguous stretch of the text, with white space at neither of its ends and only white space before and after it |
| JsString.TrimIsTrimmed | src/pages/Index.tsx:60 | a trimmed line starts and ends with a non-white-space character |
| JsString.TrimEmptyIff | src/pages/Index.tsx:97 | `trim()` of a text is empty exactly when the text is all white space, which is the missing-data test |
| JsString.Split | src/pages/Index.tsx:59 | `split` on one character gives at least one piece and no piece holds the separator; `JoinSplit` rebuilds the text from the pieces |
| JsString.Join | src/pages/Index.tsx:255-264 | `join` puts the separator between each two pieces; `SplitJoin` recovers the pieces and `JoinKeepsOut` shows it adds only the separator |
| JsString.JoinSplit | src/pages/Index.tsx:58-59 | joining the pieces of `split` with the separator gives back the text |
| JsString.SplitJoin | src/pages/Index.tsx:255-264 | splitting a join of pieces that do not contain the separator gives back the pieces |
| JsString.SplitSeveralIff | src/components/FileUploader.tsx:33-34 | a line splits on commas into two or more cells exactly when it holds a comma |
| JsString.SplitConcat | src/pages/Index.tsx:59 | splitting two texts joined by the separator gives the pieces of the first followed by those of the second |
| JsString.SplitWs | src/components/FileUploader.tsx:49 | `split(/\s+/)` gives at least one part; `SplitWsRebuild` rebuilds the text from the parts and the white-space runs between them |
| JsString.SplitWsRebuild | src/components/FileUploader.tsx:49 | the text is the parts of `split(/\s+/)` interleaved with the runs it cut at, one run fewer than parts |
| JsString.GapsAreRuns | src/components/FileUploader.tsx:49 | every run `split(/\s+/)` cuts at is non-empty and all white space |
| JsString.SplitWsPiecesNonEmpty | src/components/FileUploader.tsx:49 | when the text does not end in white space, every part after the first is non-empty, and so is the first when the text does not start with white space |
| JsString.SplitWsInnerPiecesNonEmpty | src/components/FileUploader.tsx:49 | every part of `split(/\s+/)` other than the first and the last is non-empty, so with `SplitWsRebuild`, `GapsAreRuns` and `SplitWsPiecesHaveNoWs` the parts are the maximal stretches without white space |
| JsString.SplitWsSeveralIff | src/components/FileUploader.tsx:49-50 | `split(/\s+/)` gives two or more parts exactly when the line holds white space |
| JsString.SplitWsPiecesHaveNoWs | src/components/FileUploader.tsx:49 | no part of `split(/\s+/)` holds white space |
| JsString.SplitWsFirst | src/components/FileUploader.tsx:49 | the first part of `split(/\s+/)` is everything up to the first white-space character |
| JsString.SplitWsAfterFirst | src/components/FileUploader.tsx:49 | after the first part, `split(/\s+/)` goes on with the parts of what follows the white-space run ending that part |
| JsString.Lower | src/components/FileUploader.tsx:31 | `toLowerCase()` keeps the length and maps each ASCII capital to its lower-case letter and leaves every other character alone |
| JsString.Contains | src/components/FileUploader.tsx:31 | `includes` tests for a contiguous occurrence; `ContainsIff` proves it equal to the existence of an index where the text occurs |
| JsString.ContainsIff | src/components/FileUploader.tsx:31 | `s` contains `t` exactly when `t` occurs in `s` at some index |
| Matcher.ParseData | src/pages/Index.tsx:57-62 | every line `parseData` returns is non-empty, trimmed and free of newlines; `ParseDataOneLine` and `ParseDataConcat` determine the result on every text |
| Matcher.ParseDataOneLine | src/pages/Index.tsx:57-62 | a single line gives nothing when it is all white space, and its `trim()` otherwise |
| Matcher.ParseDataConcat | src/pages/Index.tsx:57-62 | on two texts joined by a newline, `parseData` gives the lines of the first followed by those of the second |
| Matcher.NonEmptyTrimmedConcat | src/pages/Index.tsx:60-61 | trimming and dropping empty lines works line by line: on two lists in a row it gives the result for the first followed by the result for the second |
| Matcher.ParseDataOfJoin | src/pages/Index.tsx:57-62 | `parseData` of a newline join of non-empty, trimmed, newline-free lines returns exactly those lines, in order |
| Matcher.HyphensArePositions | src/pages/Index.tsx:66-71 | the collected indices are exactly the hyphen positions, in increasing order |
| Matcher.Prefix | src/pages/Index.tsx:64-80 | the prefix of an identifier, read off its hyphen positions; `PrefixShape` states its shape and `ExtractPrefix` shows the loop computes it |
| Matcher.PrefixShape | src/pages/Index.tsx:73-79 | a prefix ends in `-`; with two or more hyphens it is the identifier's shortest prefix holding two hyphens, and otherwise it is the identifier plus `-` |
| Matcher.PrefixAtSecondHyphen | src/pages/Index.tsx:73-76 | when the second hyphen is at `j`, the prefix is the first `j + 1` characters |
| Matcher.PrefixOfOneHyphen | src/pages/Index.tsx:78-79 | an identifier with at most one hyphen gets itself plus `-` |
| Matcher.ExtractPrefix | src/pages/Index.tsx:64-80 | the loop over the characters returns the prefix defined by `Prefix` |
| Matcher.KeyOfPrefix | src/pages/Index.tsx:157 | the prefix without its last hyphen starts the identifier: it is the whole identifier, or the text before its second hyphen |
| Matcher.PrefixKeepsOut | src/pages/Index.tsx:75-79 | a prefix holds no character other than `-` that the identifier lacks |
| Matcher.Processed | src/pages/Index.tsx:123-134 | the blank filter and prefix map keep at most one entry per line; `BlankLinesNeverCounted` shows that on parsed lines it keeps them all, each with its prefix |
| Matcher.BlankLinesNeverCounted | src/pages/Index.tsx:123-134 | on lines that `parseData` returns, the blank filter counts nothing and keeps every line |
| Matcher.FindIndex | src/pages/Index.tsx:138 | the index is the first entry with that prefix, or -1 when there is none |
| Matcher.Unique | src/pages/Index.tsx:137-139 | deduplication never lengthens the entries; `UniqueFirstOccurrences` states which entries it keeps |
| Matcher.KeepFirstIsFirst | src/pages/Index.tsx:137-139 | every kept entry is the first occurrence of its prefix |
| Matcher.KeepFirstOrdered | src/pages/Index.tsx:137-139 | kept entries keep their input order |
| Matcher.KeepFirstCovers | src/pages/Index.tsx:137-139 | every prefix among the entries is kept |
| Matcher.UniqueFirstOccurrences | src/pages/Index.tsx:137-139 | the retained entries have distinct prefixes, are first occurrences in input order, and cover every prefix |
| Matcher.KeepFirstOfDistinct | src/pages/Index.tsx:137-139 | entries whose prefixes are already distinct are all kept |
| Matcher.MatchSuffix | src/pages/Index.tsx:150-151 | the regular expression test for one extension; `ClassifySound` and `ClassifyComplete` state exactly which filenames it accepts and which base it returns |
| Matcher.Classify | src/pages/Index.tsx:150-154 | the `.upvf` test takes precedence over the `.upvc` test; its partners are `ClassifySound` and `ClassifyComplete` |
| Matcher.ClassifySound | src/pages/Index.tsx:150-154 | a classified filename is a non-empty base without line terminators, followed by its extension in any letter case |
| Matcher.ClassifyComplete | src/pages/Index.tsx:150-154 | every such filename is classified with that base and that extension |
| Matcher.FirstMatch | src/pages/Index.tsx:156-158 | the result is the first retained entry whose key starts the base, and no earlier entry's key does |
| Matcher.RouteOf | src/pages/Index.tsx:149-192 | the route of one filename: a bucket route names a retained entry; `RoutesPartition` shows each filename takes exactly one route |
| Matcher.Buckets | src/pages/Index.tsx:145-192 | the two dictionaries after the loop; `BucketsAreFilters` gives each entry as a filter of the input |
| Matcher.BucketsAreFilters | src/pages/Index.tsx:160-163 | each dictionary entry lists exactly the filenames routed to that prefix, in input order, and every key is a retained prefix |
| Matcher.BucketFromFiles | src/pages/Index.tsx:162-163 | a bucket holds only input filenames |
| Matcher.Orphans | src/pages/Index.tsx:164-170 | every orphan is a classified filename with its base and kind, and no retained entry matches that base; `OrphansMembers` and `OrphansConcat` complete it |
| Matcher.OrphansMembers | src/pages/Index.tsx:164-188 | an orphan record is listed exactly when its filename is an input whose route is an orphan with that kind and base |
| Matcher.OrphansConcat | src/pages/Index.tsx:149-192 | orphans keep input order: the orphans of two lists in a row are the orphans of the first followed by those of the second |
| Matcher.MalformedCount | src/pages/Index.tsx:189-191 | the malformed counter counts the unclassified filenames; `RoutesPartition` and `Conservation` tie it to the other routes |
| Matcher.StatusOf | src/pages/Index.tsx:199-212 | the status rule is exhaustive and exclusive: complete iff both flags, missing-both iff neither, otherwise the missing kind is named |
| Matcher.MakeResult | src/pages/Index.tsx:194-222 | the record of one retained entry; `RecordAt` states its fields, flags and status |
| Matcher.Results | src/pages/Index.tsx:194-223 | one record per retained entry; `RecordAt` and `Tally` state which record is where |
| Matcher.Analyze | src/pages/Index.tsx:96-104 | the analysis declines exactly when either input is all white space |
| Matcher.AnalyzeLines | src/pages/Index.tsx:106-225 | the analysis of already split lines; `AnalyzeStats`, `Conservation` and `RecordAt` state its results and counters |
| Matcher.RecordAt | src/pages/Index.tsx:195-223 | record `k` carries the `k`-th retained identifier and prefix and that prefix's buckets; each flag holds iff its bucket is non-empty; the status follows from the flags |
| Matcher.StatusCountsSum | src/pages/Index.tsx:199-212 | the four status counts add up to the number of records |
| Matcher.AnalyzeStats | src/pages/Index.tsx:141-142 | duplicates plus retained equals the identifier lines; total equals the number of records and the sum of the status counters; the orphan counter is the orphan list's length; blankLines is 0 |
| Matcher.OwnFileIsFiled | src/pages/Index.tsx:149-163 | a retained identifier's own `.upvf`/`.upvc` file is filed under it or under an earlier identifier, never orphaned |
| Matcher.RecordHasNoNewline | src/pages/Index.tsx:214-222 | no field or filename of a record holds a newline |
| Matcher.HitsAtMostOne | src/pages/Index.tsx:156-163 | with distinct prefixes a filename lands in at most one bucket: the one its route names |
| Matcher.BucketSizesCountRouted | src/pages/Index.tsx:145-192 | the buckets of one kind together hold each filename routed to that kind exactly once |
| Matcher.RoutesPartition | src/pages/Index.tsx:149-192 | every filename takes exactly one of the four routes: upvf bucket, upvc bucket, orphan, malformed |
| Matcher.FiledInResults | src/pages/Index.tsx:220-221 | the records' file lists hold as many filenames as the buckets |
| Matcher.Conservation | src/pages/Index.tsx:149-225 | filed filenames plus orphans plus malformed entries equal the number of filename lines |
| Matcher.ProcessLines | src/pages/Index.tsx:123-134 | the filter-and-map loop yields the processed entries and the blank counter |
| Matcher.FileOne | src/pages/Index.tsx:150-191 | one iteration of `forEach` extends the dictionaries, the orphans and the malformed counter along the filename's route |
| Matcher.FileAll | src/pages/Index.tsx:149-192 | the loop over filenames builds the two dictionaries, the orphan list and the malformed counter |
| Matcher.Tally | src/pages/Index.tsx:195-223 | the loop over retained entries builds the records and counts each status |
| Matcher.AnalyzeFiles | src/pages/Index.tsx:96-229 | the step-by-step analysis gives the same records, orphans and counters as `Analyze` |
| Report.WithStatus | src/pages/Index.tsx:87-94 | the status filter of `resultCounts` keeps only records with that status; `WithStatusCounts` gives its length |
| Report.ResultCounts | src/pages/Index.tsx:87-94 | the four tallies; `ResultCountsMatchStats` equates them with the analysis counters |
| Report.WithStatusCounts | src/pages/Index.tsx:87-94 | the length of a status filter is that status's count |
| Report.ResultCountsMatchStats | src/pages/Index.tsx:87-94 | the tallies shown equal the analysis counters and add up to totalLines |
| Report.FilteredResults | src/pages/Index.tsx:237-252 | the filter never lengthens the records; `FilteredMembers`, `FilteredConcat` and `FilteredCount` state which records it keeps |
| Report.FilteredMembers | src/pages/Index.tsx:237-252 | a record is shown iff it is a result and its status's flag is on |
| Report.FilteredConcat | src/pages/Index.tsx:237-252 | filtering keeps the input order |
| Report.AllOnKeepsAll | src/pages/Index.tsx:237-252 | with every flag on, which is the page's initial setting, every record is shown |
| Report.FilteredCount | src/pages/Index.tsx:237-252 | the number shown is the sum of the counts of the statuses switched on |
| Report.StatusNameFacts | src/pages/Index.tsx:260 | distinct statuses are written differently, and no status name holds a separator |
| Report.HeaderColumns | src/pages/Index.tsx:256 | the header splits back into its five titles and holds no newline |
| Report.CsvContent | src/pages/Index.tsx:254-264 | the export text; `CsvLines` splits it back into the header and one line per shown record |
| Report.CsvRow | src/pages/Index.tsx:257-263 | one record as a comma-joined line; `CsvRowFields` splits it back into its fields |
| Report.CsvLines | src/pages/Index.tsx:254-264 | with newline-free records the export splits into the header followed by one line per shown record, in order |
| Report.CsvRowFields | src/pages/Index.tsx:257-263 | with comma- and semicolon-free fields a line splits back into its five fields, and a non-empty file list splits back into its filenames |
| Report.AnalysisCsvLines | src/pages/Index.tsx:254-264 | the export of any analysis has the header plus one line per shown record |
| Loader.IsCsvName | src/components/FileUploader.tsx:31 | the CSV test on the file name; `ContainsIff` and `Lower` state what it tests |
| Loader.Cells | src/components/FileUploader.tsx:33 | one trimmed cell per comma piece; `CellsOneCell` and `CellsConcat` determine the cells of every line |
| Loader.CellsOneCell | src/components/FileUploader.tsx:33 | a text without a comma is one cell, its `trim()` |
| Loader.CellsConcat | src/components/FileUploader.tsx:33 | the cells of two texts joined by a comma are the cells of the first followed by those of the second |
| Loader.Words | src/components/FileUploader.tsx:48-51 | every row gets at least two words; `WordsFirst` and `WordsSecond` say which text lands in each column, and `WordsShape` gives their shape |
| Loader.WordsFirst | src/components/FileUploader.tsx:48-53 | the first word, which goes to the identifier column, is everything up to the line's first white-space character |
| Loader.WordsSecond | src/components/FileUploader.tsx:48-54 | on a line holding white space, the second word, which goes to the filename column, is the first word of what follows the white-space run after the first word |
| Loader.Column | src/components/FileUploader.tsx:35-36 | `filter(Boolean)` keeps only non-empty cells and never adds any; `ColumnMembers` and `ColumnConcat` complete it |
| Loader.ColumnMembers | src/components/FileUploader.tsx:35-36 | a text is in the column exactly when it is non-empty and is that cell of some row |
| Loader.ColumnConcat | src/components/FileUploader.tsx:35-36 | the column keeps row order: the column of two row lists in a row is the column of the first followed by that of the second |
| Loader.ParseFileContent | src/components/FileUploader.tsx:27-69 | the error is raised exactly for a CSV-named file with no lines or with no comma in its first line, and carries that message |
| Loader.CellRowsAreClean | src/components/FileUploader.tsx:33 | comma cells are trimmed and free of newlines |
| Loader.WordsShape | src/components/FileUploader.tsx:48-51 | a line's first word is non-empty; the second is empty iff the line holds no white space; no word holds white space |
| Loader.WordRowsAreClean | src/components/FileUploader.tsx:48-51 | whitespace-split words are trimmed and free of newlines |
| Loader.ColumnsParseBack | src/components/FileUploader.tsx:35-36 | `parseData` of each handed-over column gives back exactly that column's non-empty cells |
| Loader.WordColumnsCount | src/components/FileUploader.tsx:53-54 | the text branch gives one identifier per line, and a filename exactly for the lines holding white space |
| Loader.TextFilesLoad | src/components/FileUploader.tsx:46-61 | a non-CSV file always loads; its first column has one identifier per line, and its second column one filename per line holding white space |
| Scenarios.SampleRun | src/pages/Index.tsx:276-288 | the sample data gives three records (two complete, one missing upvf), three duplicates, and no orphans |
| Scenarios.FirstMatchWins | src/pages/Index.tsx:156-158 | the filename `10-x.upvf` goes to identifier `1`, listed first, and not to `10-x` |
| Scenarios.MalformedIgnored | src/pages/Index.tsx:189-191 | `readme.txt` is counted as malformed and appears in no record and no orphan |
| Scenarios.CsvChecksFirstRowOnly | src/components/FileUploader.tsx:34-36 | only the first row's width is checked: a later one-cell row still loads |
| Scenarios.CsvNeedsTwoColumns | src/components/FileUploader.tsx:34-45 | a CSV whose first row has one cell fails even when a later row has two |
| Scenarios.TextTakesTwoWords | src/components/FileUploader.tsx:48-54 | a text file keeps the first two words of each line and drops the empty second word of a one-word line |

## Left out

- React state, hooks, toasts and JSX rendering are not modelled. The setters
  that store results, orphans and stats become the returned `Analysis` value.
  The missing-data toast becomes `None`.
- The `ResultsTable`, `FilterPanel` and `StatsOverview` components only display
  values; they are not part of this model.
- Reading the uploaded file with `FileReader` is not modelled.
  `ParseFileContent` receives the file text and name as parameters.
  `onDataLoaded` and the error toast become the `Loaded` and `ParseError`
  results.
- The `Blob`, object URL and link click of `downloadResults` are not modelled.
  Only the CSV text `CsvContent` is.
- `filteredResults` has a `default: return true` branch. It is not modelled:
  `Status` has exactly four values, so that branch cannot be reached.
- JavaScript strings are UTF-16 code units; the model uses Unicode scalar
  values. Lone surrogates cannot be represented.
- Letter case is folded for ASCII only. This is exact here:
  - the `/i` flag without `u` never maps a non-ASCII character to an ASCII one;
  - no non-ASCII character lower-cases to `c`, `s` or `v`.
- `Matcher.AnalyzeFiles` splits the page's single function into the helper
  methods `ProcessLines`, `FileAll` (with `FileOne`) and `Tally`. The
  deduplication `filter` with `findIndex` is the function `Unique`.

=== FILE: js_string.dfy ===
/** The JavaScript string built-ins that the matcher and the loader rely on:
    `trim`, `split` on one character, `split(/\s+/)`, `join`, and the ASCII
    case folding behind `toLowerCase` and the `/i` regular-expression flag. */
module JsString {

  /** The characters `String.prototype.trim` removes and `\s` matches: the
      WhiteSpace and LineTerminator productions of ECMAScript, Zs included. */
  predicate IsWhitespace(c: char) {
    c == '\t' || c == '\n' || c == '\U{000B}' || c == '\U{000C}' || c == '\r' || c == ' '
    || c == '\U{00A0}' || c == '\U{1680}' || ('\U{2000}' <= c <= '\U{200A}')
    || c == '\U{2028}' || c == '\U{2029}' || c == '\U{202F}' || c == '\U{205F}'
    || c == '\U{3000}' || c == '\U{FEFF}'
  }

  /** The characters a regular-expression `.` does not match. */
  predicate IsLineTerminator(c: char) {
    c == '\n' || c == '\r' || c == '\U{2028}' || c == '\U{2029}'
  }

  predicate NoWhitespace(s: string) {
    forall i :: 0 <= i < |s| ==> !IsWhitespace(s[i])
  }

  predicate AllWhitespace(s: string) {
    forall i :: 0 <= i < |s| ==> IsWhitespace(s[i])
  }

  /** Neither end of `s` is whitespace. */
  predicate IsTrimmed(s: string) {
    s == [] || (!IsWhitespace(s[0]) && !IsWhitespace(s[|s| - 1]))
  }

  /** `trimStart`: drops the longest all-whitespace prefix. */
  function TrimStart(s: string): (r: string)
    ensures |r| <= |s|
  {
    if |s| > 0 && IsWhitespace(s[0]) then TrimStart(s[1..]) else s
  }

  /** What `trimStart` drops is all whitespace and what it keeps is a suffix
      that does not start with whitespace. */
  lemma {:induction false} TrimStartShape(s: string)
    ensures var r := TrimStart(s);
      && r == s[|s| - |r|..]
      && (r == [] || !IsWhitespace(r[0]))
      && AllWhitespace(s[..|s| - |r|])
  {
    if |s| > 0 && IsWhitespace(s[0]) {
      TrimStartShape(s[1..]);
    }
  }

  /** `trimEnd`: drops the longest all-whitespace suffix. */
  function TrimEnd(s: string): (r: string)
    ensures |r| <= |s|
  {
    if |s| > 0 && IsWhitespace(s[|s| - 1]) then TrimEnd(s[..|s| - 1]) else s
  }

  /** What `trimEnd` drops is all whitespace and what it keeps is a prefix
      that does not end with whitespace. */
  lemma {:induction false} TrimEndShape(s: string)
    ensures var r := TrimEnd(s);
      && r == s[..|r|]
      && (r == [] || !IsWhitespace(r[|r| - 1]))
      && AllWhitespace(s[|r|..])
  {
    if |s| > 0 && IsWhitespace(s[|s| - 1]) {
      var s' := s[..|s| - 1];
      TrimEndShape(s');
      var r := TrimEnd(s);
      assert forall i :: |r| <= i < |s| - 1 ==> s[i] == s'[i];
    }
  }

  /** `trim`: whitespace removed from both ends. */
  function Trim(s: string): (r: string)
    ensures |r| <= |s|
  {
    TrimEnd(TrimStart(s))
  }

  /** The result of `trim` has whitespace at neither end. */
  lemma TrimIsTrimmed(s: string)
    ensures IsTrimmed(Trim(s))
  {
    var t := TrimStart(s);
    var r := TrimEnd(t);
    TrimStartShape(s);
    TrimEndShape(t);
    if r != [] { assert r[0] == t[0]; }
  }

  /** `trim` keeps one contiguous stretch of the text, with whitespace at
      neither of its ends and only whitespace before and after it; these
      facts determine the result. */
  lemma TrimShape(s: string)
    ensures var r := Trim(s); var i := |s| - |TrimStart(s)|;
      && i + |r| <= |s| && r == s[i..i + |r|]
      && AllWhitespace(s[..i]) && AllWhitespace(s[i + |r|..])
      && IsTrimmed(r)
  {
    var t := TrimStart(s);
    var r := TrimEnd(t);
    var i := |s| - |t|;
    TrimStartShape(s);
    TrimEndShape(t);
    TrimIsTrimmed(s);
    assert s[i + |r|..] == t[|r|..];
  }

  /** A trimmed text is its own `trim`; in particular `trim` is idempotent. */
  lemma TrimOfTrimmed(s: string)
    requires IsTrimmed(s)
    ensures Trim(s) == s
  {
  }

  /** `trim` leaves nothing exactly when the text is all whitespace. */
  lemma TrimEmptyIff(s: string)
    ensures Trim(s) == [] <==> AllWhitespace(s)
  {
    var t := TrimStart(s);
    TrimStartShape(s);
    TrimEndShape(t);
    var k := |s| - |t|;
    if Trim(s) == [] {
      assert AllWhitespace(t[0..]);
      assert t == [];
      assert s[..k] == s;
    }
  }

  /** A character absent from `s` is absent from `Trim(s)`. */
  lemma TrimKeepsOut(s: string, c: char)
    requires c !in s
    ensures c !in Trim(s)
  {
    var t := TrimStart(s);
    TrimStartShape(s);
    TrimEndShape(t);
    var k := |s| - |t|;
    assert forall i :: 0 <= i < |t| ==> t[i] == s[k + i];
    var r := TrimEnd(t);
    assert forall i :: 0 <= i < |r| ==> r[i] == t[i];
  }

  /** Splitting at a one-character separator: the pieces between
      separators, always at least one. */
  function Split(s: string, sep: char): (parts: seq<string>)
    ensures |parts| >= 1
    ensures forall k :: 0 <= k < |parts| ==> sep !in parts[k]
  {
    if |s| == 0 then [""]
    else
      var rest := Split(s[1..], sep);
      if s[0] == sep then [""] + rest
      else [[s[0]] + rest[0]] + rest[1..]
  }

  /** The pieces with the separator between each two of them. */
  function Join(xs: seq<string>, sep: string): string {
    if |xs| == 0 then ""
    else if |xs| == 1 then xs[0]
    else xs[0] + sep + Join(xs[1..], sep)
  }

  /** Joining the pieces of a split with the same separator gives back the text. */
  lemma {:induction false} JoinSplit(s: string, sep: char)
    ensures Join(Split(s, sep), [sep]) == s
  {
    if |s| > 0 {
      var rest := Split(s[1..], sep);
      JoinSplit(s[1..], sep);
      if s[0] == sep {
        assert Split(s, sep) == [""] + rest;
        assert ([""] + rest)[1..] == rest;
      } else {
        var parts := [[s[0]] + rest[0]] + rest[1..];
        assert Split(s, sep) == parts;
        if |rest| == 1 {
          assert Join(rest, [sep]) == rest[0];
        } else {
          assert parts[1..] == rest[1..];
          assert Join(rest, [sep]) == rest[0] + [sep] + Join(rest[1..], [sep]);
        }
      }
    }
  }

  /** Splitting a text with no separator gives that text alone. */
  lemma {:induction false} SplitNoSep(s: string, sep: char)
    requires sep !in s
    ensures Split(s, sep) == [s]
  {
    if |s| > 0 {
      SplitNoSep(s[1..], sep);
      assert [s[0]] + s[1..] == s;
    }
  }

  /** A separator between a separator-free head and the rest splits off the head. */
  lemma {:induction false} SplitAtSep(a: string, sep: char, b: string)
    requires sep !in a
    ensures Split(a + [sep] + b, sep) == [a] + Split(b, sep)
  {
    if |a| == 0 {
      assert a + [sep] + b == [sep] + b;
      assert ([sep] + b)[1..] == b;
    } else {
      var s := a + [sep] + b;
      assert s[1..] == a[1..] + [sep] + b;
      SplitAtSep(a[1..], sep, b);
      assert [a[0]] + a[1..] == a;
    }
  }

  /** A separator between two texts joins their pieces: the last piece of
      the first and the first piece of the second stay apart. */
  lemma {:induction false} SplitConcat(a: string, sep: char, b: string)
    ensures Split(a + [sep] + b, sep) == Split(a, sep) + Split(b, sep)
  {
    var s := a + [sep] + b;
    if |a| == 0 {
      assert s == [sep] + b;
      assert s[1..] == b;
    } else {
      assert s[0] == a[0];
      assert s[1..] == a[1..] + [sep] + b;
      SplitConcat(a[1..], sep, b);
      if a[0] != sep {
        SplitConcatStep(a[0], Split(a[1..], sep), Split(b, sep));
      }
    }
  }

  /** The list identity behind the non-separator case of `SplitConcat`. */
  lemma SplitConcatStep(c: char, head: seq<string>, tail: seq<string>)
    requires |head| >= 1
    ensures [[c] + (head + tail)[0]] + (head + tail)[1..] == ([[c] + head[0]] + head[1..]) + tail
  {
    assert (head + tail)[0] == head[0];
    assert (head + tail)[1..] == head[1..] + tail;
  }

  /** Splitting a join of separator-free pieces gives back the pieces. */
  lemma {:induction false} SplitJoin(xs: seq<string>, sep: char)
    requires |xs| >= 1
    requires forall k :: 0 <= k < |xs| ==> sep !in xs[k]
    ensures Split(Join(xs, [sep]), sep) == xs
  {
    if |xs| == 1 {
      SplitNoSep(xs[0], sep);
    } else {
      SplitJoin(xs[1..], sep);
      SplitAtSep(xs[0], sep, Join(xs[1..], [sep]));
      assert [xs[0]] + xs[1..] == xs;
    }
  }

  /** The pieces of a split hold no character the text lacks. */
  lemma {:induction false} SplitKeepsOut(s: string, sep: char, c: char)
    requires c !in s
    ensures forall k :: 0 <= k < |Split(s, sep)| ==> c !in Split(s, sep)[k]
  {
    if |s| > 0 {
      SplitKeepsOut(s[1..], sep, c);
      assert c != s[0];
    }
  }

  /** A text splits into two or more pieces exactly when it holds the separator. */
  lemma {:induction false} SplitSeveralIff(s: string, sep: char)
    ensures |Split(s, sep)| >= 2 <==> sep in s
  {
    if |s| > 0 {
      SplitSeveralIff(s[1..], sep);
      assert s == [s[0]] + s[1..];
    }
  }

  /** A join of pieces that avoid `c`, with a separator that avoids `c`, avoids `c`. */
  lemma {:induction false} JoinKeepsOut(xs: seq<string>, sep: string, c: char)
    requires c !in sep
    requires forall k :: 0 <= k < |xs| ==> c !in xs[k]
    ensures c !in Join(xs, sep)
  {
    if |xs| > 1 {
      JoinKeepsOut(xs[1..], sep, c);
    }
  }

  /** Splitting at whitespace runs: the pieces between maximal whitespace
      runs, always at least one. */
  function SplitWs(s: string): (parts: seq<string>)
    ensures |parts| >= 1
    decreases |s|
  {
    if |s| == 0 then [""]
    else if IsWhitespace(s[0]) then [""] + SplitWs(TrimStart(s[1..]))
    else
      var rest := SplitWs(s[1..]);
      [[s[0]] + rest[0]] + rest[1..]
  }

  /** No piece of `SplitWs` holds whitespace. */
  lemma {:induction false} SplitWsPiecesHaveNoWs(s: string)
    ensures forall k :: 0 <= k < |SplitWs(s)| ==> NoWhitespace(SplitWs(s)[k])
    decreases |s|
  {
    if |s| > 0 {
      if IsWhitespace(s[0]) {
        SplitWsPiecesHaveNoWs(TrimStart(s[1..]));
      } else {
        SplitWsPiecesHaveNoWs(s[1..]);
      }
    }
  }

  /** `trimStart` keeps a last character that is not whitespace. */
  lemma {:induction false} TrimStartKeepsLast(s: string)
    requires s != [] && !IsWhitespace(s[|s| - 1])
    ensures TrimStart(s) != [] && TrimStart(s)[|TrimStart(s)| - 1] == s[|s| - 1]
  {
    if IsWhitespace(s[0]) {
      TrimStartKeepsLast(s[1..]);
    }
  }

  /** A text that does not end in whitespace splits into pieces that are
      non-empty from the second on, and also the first when the text does
      not start with whitespace. */
  lemma {:induction false} SplitWsPiecesNonEmpty(s: string)
    requires s == [] || !IsWhitespace(s[|s| - 1])
    ensures forall k :: 1 <= k < |SplitWs(s)| ==> SplitWs(s)[k] != []
    ensures s != [] && !IsWhitespace(s[0]) ==> SplitWs(s)[0] != []
    decreases |s|, 1
  {
    if |s| > 0 {
      if IsWhitespace(s[0]) {
        WsHeadPiecesNonEmpty(s);
      } else {
        var tail := s[1..];
        assert tail == [] || tail[|tail| - 1] == s[|s| - 1];
        SplitWsPiecesNonEmpty(tail);
        var rest := SplitWs(tail);
        assert SplitWs(s) == [[s[0]] + rest[0]] + rest[1..];
        assert forall k :: 1 <= k < |SplitWs(s)| ==> SplitWs(s)[k] == rest[k];
      }
    }
  }

  /** The case of `SplitWsPiecesNonEmpty` where the text starts with whitespace. */
  lemma {:induction false} WsHeadPiecesNonEmpty(s: string)
    requires s != [] && IsWhitespace(s[0]) && !IsWhitespace(s[|s| - 1])
    ensures forall k :: 1 <= k < |SplitWs(s)| ==> SplitWs(s)[k] != []
    decreases |s|, 0
  {
    var tail := s[1..];
    assert tail == [] || tail[|tail| - 1] == s[|s| - 1];
    TrimStartKeepsLast(tail);
    TrimStartShape(tail);
    var t := TrimStart(tail);
    SplitWsPiecesNonEmpty(t);
    var parts := SplitWs(t);
    assert SplitWs(s) == [""] + parts;
    assert parts[0] != [];
    assert forall k :: 1 <= k < |SplitWs(s)| ==> SplitWs(s)[k] == parts[k - 1];
  }

  /** Every piece other than the first and the last is non-empty: two
      neighbouring whitespace runs are never split apart. */
  lemma {:induction false} SplitWsInnerPiecesNonEmpty(s: string)
    ensures forall k :: 0 < k < |SplitWs(s)| - 1 ==> SplitWs(s)[k] != []
    decreases |s|
  {
    if |s| > 0 {
      if IsWhitespace(s[0]) {
        var t := TrimStart(s[1..]);
        TrimStartShape(s[1..]);
        SplitWsInnerPiecesNonEmpty(t);
        var parts := SplitWs(t);
        assert SplitWs(s) == [""] + parts;
        if |parts| >= 2 {
          assert t != [] && !IsWhitespace(t[0]);
          assert parts[0] != [];
        }
        assert forall k :: 0 < k < |SplitWs(s)| ==> SplitWs(s)[k] == parts[k - 1];
      } else {
        var tail := s[1..];
        SplitWsInnerPiecesNonEmpty(tail);
        var rest := SplitWs(tail);
        assert SplitWs(s) == [[s[0]] + rest[0]] + rest[1..];
        assert forall k :: 0 < k < |SplitWs(s)| ==> SplitWs(s)[k] == rest[k];
      }
    }
  }

  /** `w` is the longest stretch at the start of `s` free of whitespace. */
  predicate IsFirstWord(s: string, w: string) {
    && |w| <= |s| && w == s[..|w|] && NoWhitespace(w)
    && (|w| == |s| || IsWhitespace(s[|w|]))
  }

  /** The first piece of `SplitWs` is the text's first word: everything up
      to its first whitespace character. */
  lemma {:induction false} SplitWsFirst(s: string)
    ensures IsFirstWord(s, SplitWs(s)[0])
    decreases |s|
  {
    if |s| > 0 && !IsWhitespace(s[0]) {
      var tail := s[1..];
      SplitWsFirst(tail);
      var q := SplitWs(tail)[0];
      var p := SplitWs(s)[0];
      assert p == [s[0]] + q;
      assert p == s[..|p|];
      assert forall i :: 1 <= i < |p| ==> p[i] == q[i - 1];
      assert |p| == |s| || s[|p|] == tail[|q|];
    }
  }

  /** After the first word, `SplitWs` goes on with the pieces of what follows
      the whitespace run that ends the word. */
  lemma {:induction false} SplitWsAfterFirst(s: string)
    requires |SplitWs(s)| >= 2
    ensures var p := SplitWs(s)[0];
      |p| < |s| && SplitWs(s)[1..] == SplitWs(TrimStart(s[|p|..]))
    decreases |s|
  {
    if IsWhitespace(s[0]) {
      assert s[0..] == s;
    } else {
      var tail := s[1..];
      var rest := SplitWs(tail);
      assert SplitWs(s) == [[s[0]] + rest[0]] + rest[1..];
      SplitWsAfterFirst(tail);
      assert s[|SplitWs(s)[0]|..] == tail[|rest[0]|..];
    }
  }

  /** A text splits into two or more pieces exactly when it holds whitespace. */
  lemma {:induction false} SplitWsSeveralIff(s: string)
    ensures |SplitWs(s)| >= 2 <==> !NoWhitespace(s)
    decreases |s|
  {
    if |s| > 0 && !IsWhitespace(s[0]) {
      SplitWsSeveralIff(s[1..]);
      if !NoWhitespace(s) {
        var i :| 0 <= i < |s| && IsWhitespace(s[i]);
        assert s[1..][i - 1] == s[i];
      }
    }
  }

  /** The whitespace runs `SplitWs` cuts at, in order. */
  function Gaps(s: string): (gaps: seq<string>)
    decreases |s|
  {
    if |s| == 0 then []
    else if IsWhitespace(s[0]) then
      var t := TrimStart(s[1..]);
      [s[..|s| - |t|]] + Gaps(t)
    else Gaps(s[1..])
  }

  /** The pieces with the gaps between them, in turn. */
  function Interleave(parts: seq<string>, gaps: seq<string>): string
    requires |parts| == |gaps| + 1
  {
    if |parts| == 1 then parts[0]
    else parts[0] + gaps[0] + Interleave(parts[1..], gaps[1..])
  }

  /** Growing the first piece grows the interleaving at its front. */
  lemma InterleaveFront(c: char, parts: seq<string>, gaps: seq<string>)
    requires |parts| == |gaps| + 1
    ensures Interleave([[c] + parts[0]] + parts[1..], gaps) == [c] + Interleave(parts, gaps)
  {
    var parts' := [[c] + parts[0]] + parts[1..];
    assert parts'[1..] == parts[1..];
  }

  /** A text that starts with whitespace is its leading run followed by
      what `trimStart` leaves after the first character. */
  lemma LeadingRun(s: string)
    requires s != [] && IsWhitespace(s[0])
    ensures var t := TrimStart(s[1..]);
      && |t| < |s| && s == s[..|s| - |t|] + t
      && s[..|s| - |t|] != [] && AllWhitespace(s[..|s| - |t|])
  {
    var tail := s[1..];
    var t := TrimStart(tail);
    TrimStartShape(tail);
    assert s[..|s| - |t|] == [s[0]] + tail[..|tail| - |t|];
  }

  /** There is one run between each two pieces. */
  lemma {:induction false} GapsCount(s: string)
    ensures |Gaps(s)| + 1 == |SplitWs(s)|
    decreases |s|
  {
    if |s| > 0 {
      if IsWhitespace(s[0]) {
        GapsCount(TrimStart(s[1..]));
      } else {
        GapsCount(s[1..]);
      }
    }
  }

  /** Every run is non-empty whitespace. */
  lemma {:induction false} GapsAreRuns(s: string)
    ensures forall k :: 0 <= k < |Gaps(s)| ==> Gaps(s)[k] != [] && AllWhitespace(Gaps(s)[k])
    decreases |s|
  {
    if |s| > 0 {
      if IsWhitespace(s[0]) {
        var t := TrimStart(s[1..]);
        LeadingRun(s);
        GapsAreRuns(t);
        assert Gaps(s) == [s[..|s| - |t|]] + Gaps(t);
      } else {
        GapsAreRuns(s[1..]);
      }
    }
  }

  /** `SplitWs` loses nothing: the text is its pieces with the runs of `Gaps`
      between them. With `GapsAreRuns`, `SplitWsPiecesHaveNoWs` and
      `SplitWsInnerPiecesNonEmpty` this pins the pieces down as the maximal
      whitespace-free stretches. */
  lemma {:induction false} SplitWsRebuild(s: string)
    ensures |Gaps(s)| + 1 == |SplitWs(s)|
    ensures Interleave(SplitWs(s), Gaps(s)) == s
    decreases |s|
  {
    GapsCount(s);
    if |s| > 0 {
      if IsWhitespace(s[0]) {
        var t := TrimStart(s[1..]);
        LeadingRun(s);
        SplitWsRebuild(t);
        var parts, gaps := SplitWs(s), Gaps(s);
        assert parts == [""] + SplitWs(t) && parts[1..] == SplitWs(t);
        assert gaps == [s[..|s| - |t|]] + Gaps(t) && gaps[1..] == Gaps(t);
      } else {
        var tail := s[1..];
        SplitWsRebuild(tail);
        InterleaveFront(s[0], SplitWs(tail), Gaps(tail));
        assert s == [s[0]] + tail;
      }
    }
  }

  /** ASCII case folding to lower case, the only folding that matters for the
      ASCII patterns it is compared with. */
  function LowerAscii(c: char): char {
    if 'A' <= c <= 'Z' then (c as int + 32) as char else c
  }

  function Lower(s: string): (r: string)
    ensures |r| == |s|
    ensures forall i :: 0 <= i < |s| ==> r[i] == LowerAscii(s[i])
  {
    seq(|s|, i requires 0 <= i < |s| => LowerAscii(s[i]))
  }

  /** `t` occurs in `s` as a contiguous stretch. */
  predicate Contains(s: string, t: string)
    decreases |s|
  {
    if |s| < |t| then false else s[..|t|] == t || Contains(s[1..], t)
  }

  /** `t` sits in `s` starting at position `i`. */
  predicate OccursAt(s: string, t: string, i: int) {
    0 <= i && i + |t| <= |s| && s[i..i + |t|] == t
  }

  /** `Contains` holds exactly when `t` sits in `s` at some position. */
  lemma {:induction false} ContainsIff(s: string, t: string)
    ensures Contains(s, t) <==> exists i :: OccursAt(s, t, i)
    decreases |s|
  {
    if |t| == 0 {
      assert OccursAt(s, t, 0);
    } else if |s| >= |t| {
      var s' := s[1..];
      ContainsIff(s', t);
      if Contains(s', t) {
        var i :| OccursAt(s', t, i);
        assert s[i + 1..i + 1 + |t|] == s'[i..i + |t|];
        assert OccursAt(s, t, i + 1);
      }
      if s[..|t|] == t {
        assert OccursAt(s, t, 0);
      }
      if exists i :: OccursAt(s, t, i) {
        var i :| OccursAt(s, t, i);
        if i > 0 {
          assert s'[i - 1..i - 1 + |t|] == s[i..i + |t|];
          assert OccursAt(s', t, i - 1);
        }
      }
    }
  }
}

=== FILE: loader.dfy ===
/** `parseFileContent` of the file uploader: the text of an uploaded file is
    cut into two newline-separated columns, by commas when the file name
    mentions `csv` and by whitespace runs otherwise. */
module Loader {
  import opened JsString
  import opened Matcher

  datatype LoadResult = Loaded(column1: string, column2: string) | ParseError(message: string)

  const TooFewColumns: string := "CSV file must have at least 2 columns"

  /** The file is read as CSV when its name, lower-cased, contains `csv`. */
  predicate IsCsvName(filename: string) {
    Contains(Lower(filename), "csv")
  }

  /** Every piece trimmed, in order. */
  function TrimAll(pieces: seq<string>): (cells: seq<string>)
    ensures |cells| == |pieces|
  {
    seq(|pieces|, k requires 0 <= k < |pieces| => Trim(pieces[k]))
  }

  /** The cells of a CSV line: its comma-separated pieces, each trimmed. */
  function Cells(line: string): (row: seq<string>)
    ensures |row| == |Split(line, ',')|
  {
    TrimAll(Split(line, ','))
  }

  /** A comma between two texts puts the cells of the first before those
      of the second. */
  lemma CellsConcat(a: string, b: string)
    ensures Cells(a + "," + b) == Cells(a) + Cells(b)
  {
    SplitConcat(a, ',', b);
    TrimAllConcat(Split(a, ','), Split(b, ','));
  }

  lemma TrimAllConcat(x: seq<string>, y: seq<string>)
    ensures TrimAll(x + y) == TrimAll(x) + TrimAll(y)
  {
    assert forall k :: 0 <= k < |x + y| ==> TrimAll(x + y)[k] == (TrimAll(x) + TrimAll(y))[k];
  }

  /** A text without a comma is a single cell: its `trim`. With `CellsConcat`
      this determines the cells of every line. */
  lemma CellsOneCell(a: string)
    requires ',' !in a
    ensures Cells(a) == [Trim(a)]
  {
    SplitNoSep(a, ',');
  }

  /** The rows of the comma branch, one per line. */
  function CellRows(lines: seq<string>): (rows: seq<seq<string>>)
    ensures |rows| == |lines|
  {
    seq(|lines|, k requires 0 <= k < |lines| => Cells(lines[k]))
  }

  /** The words of a text line, split at whitespace runs; a line that gives
      a single word gets an empty second word. */
  function Words(line: string): (row: seq<string>)
    ensures |row| >= 2
  {
    var parts := SplitWs(line);
    if |parts| >= 2 then parts else [parts[0], ""]
  }

  /** The rows of the whitespace branch, one per line. */
  function WordRows(lines: seq<string>): (rows: seq<seq<string>>)
    ensures |rows| == |lines|
  {
    seq(|lines|, k requires 0 <= k < |lines| => Words(lines[k]))
  }

  /** `row[k]`, with a missing cell read as the empty text (both are dropped
      by `filter(Boolean)`). */
  function Cell(row: seq<string>, k: nat): string {
    if k < |row| then row[k] else ""
  }

  /** The `k`-th cell of every row, with the empty ones dropped, in row order. */
  function Column(rows: seq<seq<string>>, k: nat): (col: seq<string>)
    ensures |col| <= |rows|
    ensures forall i :: 0 <= i < |col| ==> col[i] != []
  {
    if |rows| == 0 then []
    else
      var c := Cell(rows[|rows| - 1], k);
      Column(rows[..|rows| - 1], k) + (if c == [] then [] else [c])
  }

  /** Every entry of a column is the `k`-th cell of some row. */
  lemma {:induction false} ColumnCellOf(rows: seq<seq<string>>, k: nat, x: string)
    requires x in Column(rows, k)
    ensures exists i :: 0 <= i < |rows| && Cell(rows[i], k) == x
  {
    var n := |rows| - 1;
    var rows' := rows[..n];
    if x in Column(rows', k) {
      ColumnCellOf(rows', k, x);
      var i :| 0 <= i < |rows'| && Cell(rows'[i], k) == x;
      assert rows[i] == rows'[i];
    } else {
      assert Cell(rows[n], k) == x;
    }
  }

  /** Every non-empty `k`-th cell is in the column. */
  lemma {:induction false} ColumnHasCell(rows: seq<seq<string>>, k: nat, i: nat)
    requires i < |rows| && Cell(rows[i], k) != []
    ensures Cell(rows[i], k) in Column(rows, k)
  {
    var n := |rows| - 1;
    if i < n {
      var rows' := rows[..n];
      ColumnHasCell(rows', k, i);
      assert rows'[i] == rows[i];
    }
  }

  /** A column holds exactly the non-empty `k`-th cells of the rows. */
  lemma ColumnMembers(rows: seq<seq<string>>, k: nat, x: string)
    ensures x in Column(rows, k) <==> x != [] && exists i :: 0 <= i < |rows| && Cell(rows[i], k) == x
  {
    if x in Column(rows, k) {
      ColumnCellOf(rows, k, x);
    }
    if x != [] && exists i :: 0 <= i < |rows| && Cell(rows[i], k) == x {
      var i :| 0 <= i < |rows| && Cell(rows[i], k) == x;
      ColumnHasCell(rows, k, i);
    }
  }

  /** The cells keep the row order: the column of a concatenation is the
      columns of its parts, one after the other. */
  lemma {:induction false} ColumnConcat(a: seq<seq<string>>, b: seq<seq<string>>, k: nat)
    ensures Column(a + b, k) == Column(a, k) + Column(b, k)
  {
    if |b| > 0 {
      var b' := b[..|b| - 1];
      ColumnConcat(a, b', k);
      assert (a + b)[..|a + b| - 1] == a + b';
    } else {
      assert a + b == a;
    }
  }

  /** `parseFileContent`: the two column texts, or the one error it raises. */
  function ParseFileContent(content: string, filename: string): (r: LoadResult)
    ensures r.ParseError? <==> IsCsvName(filename) && (ParseData(content) == [] || ',' !in ParseData(content)[0])
    ensures r.ParseError? ==> r.message == TooFewColumns
  {
    var lines := ParseData(content);
    if IsCsvName(filename) then
      var rows := CellRows(lines);
      if |rows| == 0 then ParseError(TooFewColumns)
      else
        SplitSeveralIff(lines[0], ',');
        if |rows[0]| >= 2 then Loaded(Join(Column(rows, 0), "\n"), Join(Column(rows, 1), "\n"))
        else ParseError(TooFewColumns)
    else
      var rows := WordRows(lines);
      Loaded(Join(Column(rows, 0), "\n"), Join(Column(rows, 1), "\n"))
  }

  /** Every cell is trimmed and free of newlines. */
  predicate CleanRows(rows: seq<seq<string>>) {
    forall i, j :: 0 <= i < |rows| && 0 <= j < |rows[i]| ==> IsTrimmed(rows[i][j]) && '\n' !in rows[i][j]
  }

  lemma {:induction false} ColumnOfCleanRows(rows: seq<seq<string>>, k: nat)
    requires CleanRows(rows)
    ensures forall i :: 0 <= i < |Column(rows, k)| ==> IsTrimmed(Column(rows, k)[i]) && '\n' !in Column(rows, k)[i]
  {
    if |rows| > 0 {
      ColumnOfCleanRows(rows[..|rows| - 1], k);
    }
  }

  /** The cells of the comma branch are trimmed and free of newlines. */
  lemma CellRowsAreClean(lines: seq<string>)
    requires forall k :: 0 <= k < |lines| ==> '\n' !in lines[k]
    ensures CleanRows(CellRows(lines))
  {
    var rows := CellRows(lines);
    forall i, j | 0 <= i < |rows| && 0 <= j < |rows[i]|
      ensures IsTrimmed(rows[i][j]) && '\n' !in rows[i][j]
    {
      var pieces := Split(lines[i], ',');
      SplitKeepsOut(lines[i], ',', '\n');
      TrimIsTrimmed(pieces[j]);
      TrimKeepsOut(pieces[j], '\n');
    }
  }

  /** A trimmed, non-empty line gives a non-empty first word free of
      whitespace, and a second word that is empty exactly when the line has
      no whitespace; every word is free of whitespace. */
  lemma WordsShape(line: string)
    requires line != [] && IsTrimmed(line)
    ensures var row := Words(line);
      && row[0] != []
      && (row[1] == [] <==> NoWhitespace(line))
      && forall j :: 0 <= j < |row| ==> NoWhitespace(row[j])
  {
    SplitWsPiecesNonEmpty(line);
    SplitWsSeveralIff(line);
    SplitWsPiecesHaveNoWs(line);
  }

  /** The first word, which goes to the identifier column, is everything up
      to the line's first whitespace character. */
  lemma WordsFirst(line: string)
    ensures IsFirstWord(line, Words(line)[0])
  {
    SplitWsFirst(line);
  }

  /** On a line holding whitespace the second word, which goes to the
      filename column, is the first word of what follows the whitespace run
      after the first word. */
  lemma WordsSecond(line: string)
    requires !NoWhitespace(line)
    ensures var i := |Words(line)[0]|;
      i < |line| && IsFirstWord(TrimStart(line[i..]), Words(line)[1])
  {
    SplitWsSeveralIff(line);
    SplitWsAfterFirst(line);
    var t := TrimStart(line[|SplitWs(line)[0]|..]);
    SplitWsFirst(t);
    assert Words(line)[1] == SplitWs(line)[1..][0];
  }

  /** The words of the whitespace branch are trimmed and free of newlines. */
  lemma WordRowsAreClean(lines: seq<string>)
    requires forall k :: 0 <= k < |lines| ==> lines[k] != [] && IsTrimmed(lines[k])
    ensures CleanRows(WordRows(lines))
  {
    var rows := WordRows(lines);
    forall i, j | 0 <= i < |rows| && 0 <= j < |rows[i]|
      ensures IsTrimmed(rows[i][j]) && '\n' !in rows[i][j]
    {
      WordsShape(lines[i]);
      assert NoWhitespace(rows[i][j]);
      assert IsWhitespace('\n');
    }
  }

  /** What the loader hands over is what the analysis page reads back: its
      `parseData` of each column text returns exactly the non-empty cells
      of that column, in row order. */
  lemma ColumnsParseBack(content: string, filename: string)
    requires ParseFileContent(content, filename).Loaded?
    ensures var r := ParseFileContent(content, filename);
      var lines := ParseData(content);
      var rows := if IsCsvName(filename) then CellRows(lines) else WordRows(lines);
      && ParseData(r.column1) == Column(rows, 0)
      && ParseData(r.column2) == Column(rows, 1)
  {
    var lines := ParseData(content);
    var rows := if IsCsvName(filename) then CellRows(lines) else WordRows(lines);
    if IsCsvName(filename) {
      CellRowsAreClean(lines);
    } else {
      WordRowsAreClean(lines);
    }
    ColumnOfCleanRows(rows, 0);
    ColumnOfCleanRows(rows, 1);
    ParseDataOfJoin(Column(rows, 0));
    ParseDataOfJoin(Column(rows, 1));
  }

  /** Counts the lines that hold whitespace. */
  function SpacedCount(lines: seq<string>): nat {
    if |lines| == 0 then 0
    else SpacedCount(lines[..|lines| - 1]) + (if NoWhitespace(lines[|lines| - 1]) then 0 else 1)
  }

  /** In the whitespace branch every non-blank line gives one identifier,
      and exactly the lines that hold whitespace give a filename. */
  lemma {:induction false} WordColumnsCount(lines: seq<string>)
    requires forall k :: 0 <= k < |lines| ==> lines[k] != [] && IsTrimmed(lines[k])
    ensures |Column(WordRows(lines), 0)| == |lines|
    ensures |Column(WordRows(lines), 1)| == SpacedCount(lines)
  {
    if |lines| > 0 {
      var lines' := lines[..|lines| - 1];
      WordColumnsCount(lines');
      WordsShape(lines[|lines| - 1]);
      assert WordRows(lines)[..|lines| - 1] == WordRows(lines');
    }
  }

  /** The whitespace branch never fails, and its first column holds one
      entry per non-blank line of the file. */
  lemma TextFilesLoad(content: string, filename: string)
    requires !IsCsvName(filename)
    ensures var r := ParseFileContent(content, filename);
      && r.Loaded?
      && |ParseData(r.column1)| == |ParseData(content)|
      && |ParseData(r.column2)| == SpacedCount(ParseData(content))
  {
    ColumnsParseBack(content, filename);
    WordColumnsCount(ParseData(content));
  }
}

=== FILE: matcher.dfy ===
/** The line-number / filename matcher of the analysis page: identifiers are
    reduced to a prefix (up to the second hyphen), deduplicated by prefix,
    and every `.upvf` / `.upvc` filename is filed under the first identifier
    whose prefix starts its base name, or kept as an orphan. */
module Matcher {
  import opened JsString

  datatype Option<T> = None | Some(value: T)

  // ---------------------------------------------------------------------
  // Line splitting
  // ---------------------------------------------------------------------

  /** The trimmed lines of `raw` that are not empty, in order. */
  function NonEmptyTrimmed(raw: seq<string>): (lines: seq<string>)
    ensures |lines| <= |raw|
    ensures forall k :: 0 <= k < |lines| ==> lines[k] != [] && IsTrimmed(lines[k])
  {
    if |raw| == 0 then []
    else
      var rest := NonEmptyTrimmed(raw[..|raw| - 1]);
      var t := Trim(raw[|raw| - 1]);
      TrimIsTrimmed(raw[|raw| - 1]);
      if t == [] then rest else rest + [t]
  }

  lemma {:induction false} NonEmptyTrimmedKeepsOut(raw: seq<string>, c: char)
    requires forall k :: 0 <= k < |raw| ==> c !in raw[k]
    ensures forall k :: 0 <= k < |NonEmptyTrimmed(raw)| ==> c !in NonEmptyTrimmed(raw)[k]
  {
    if |raw| > 0 {
      NonEmptyTrimmedKeepsOut(raw[..|raw| - 1], c);
      TrimKeepsOut(raw[|raw| - 1], c);
    }
  }

  /** `parseData`: split on newlines, trim, drop the empty lines. */
  function ParseData(data: string): (lines: seq<string>)
    ensures forall k :: 0 <= k < |lines| ==> lines[k] != [] && IsTrimmed(lines[k]) && '\n' !in lines[k]
  {
    var raw := Split(data, '\n');
    NonEmptyTrimmedKeepsOut(raw, '\n');
    NonEmptyTrimmed(raw)
  }

  /** Lines that are already trimmed and non-empty pass the filter unchanged. */
  lemma {:induction false} NonEmptyTrimmedKeepsClean(lines: seq<string>)
    requires forall k :: 0 <= k < |lines| ==> lines[k] != [] && IsTrimmed(lines[k])
    ensures NonEmptyTrimmed(lines) == lines
  {
    if |lines| > 0 {
      NonEmptyTrimmedKeepsClean(lines[..|lines| - 1]);
      TrimOfTrimmed(lines[|lines| - 1]);
    }
  }

  /** `parseData` undoes a newline join of trimmed, non-empty lines without
      newlines: it returns exactly those lines, in order. */
  lemma ParseDataOfJoin(lines: seq<string>)
    requires forall k :: 0 <= k < |lines| ==> lines[k] != [] && IsTrimmed(lines[k]) && '\n' !in lines[k]
    ensures ParseData(Join(lines, "\n")) == lines
  {
    if |lines| == 0 {
      assert Split("", '\n') == [""];
    } else {
      SplitJoin(lines, '\n');
      NonEmptyTrimmedKeepsClean(lines);
    }
  }

  /** The filter works line by line: on two lists in a row it gives the
      result for the first followed by the result for the second. */
  lemma {:induction false} NonEmptyTrimmedConcat(a: seq<string>, b: seq<string>)
    ensures NonEmptyTrimmed(a + b) == NonEmptyTrimmed(a) + NonEmptyTrimmed(b)
  {
    if |b| == 0 {
      assert a + b == a;
    } else {
      var b' := b[..|b| - 1];
      NonEmptyTrimmedConcat(a, b');
      assert (a + b)[..|a + b| - 1] == a + b';
      assert (a + b)[|a + b| - 1] == b[|b| - 1];
    }
  }

  /** `parseData` of one line: nothing when the line is blank, and the
      line's `trim` otherwise. */
  lemma ParseDataOneLine(line: string)
    requires '\n' !in line
    ensures ParseData(line) == if AllWhitespace(line) then [] else [Trim(line)]
  {
    SplitNoSep(line, '\n');
    TrimEmptyIff(line);
    assert [line][..0] == [];
  }

  /** `parseData` works line by line: the lines of two texts joined by a
      newline are the lines of the first followed by those of the second.
      With `ParseDataOneLine` this determines `parseData` on every text. */
  lemma ParseDataConcat(a: string, b: string)
    ensures ParseData(a + "\n" + b) == ParseData(a) + ParseData(b)
  {
    SplitConcat(a, '\n', b);
    NonEmptyTrimmedConcat(Split(a, '\n'), Split(b, '\n'));
  }

  // ---------------------------------------------------------------------
  // Prefix extraction
  // ---------------------------------------------------------------------

  /** The positions of the hyphens of `s`, in increasing order: the list
      `extractPrefix` builds. */
  function Hyphens(s: string): (hs: seq<nat>)
    ensures forall k :: 0 <= k < |hs| ==> hs[k] < |s|
  {
    if |s| == 0 then []
    else Hyphens(s[..|s| - 1]) + (if s[|s| - 1] == '-' then [|s| - 1] else [])
  }

  /** `Hyphens(s)` lists exactly the hyphen positions of `s`, increasing. */
  lemma {:induction false} HyphensArePositions(s: string)
    ensures forall k :: 0 <= k < |Hyphens(s)| ==> s[Hyphens(s)[k]] == '-'
    ensures forall k, l :: 0 <= k < l < |Hyphens(s)| ==> Hyphens(s)[k] < Hyphens(s)[l]
    ensures forall i :: 0 <= i < |s| && s[i] == '-' ==> i in Hyphens(s)
  {
    if |s| > 0 {
      var s' := s[..|s| - 1];
      HyphensArePositions(s');
      assert forall i :: 0 <= i < |s'| ==> s'[i] == s[i];
    }
  }

  /** The hyphens of a prefix of `s` are the first hyphens of `s`; the ones
      left out lie beyond it. */
  lemma {:induction false} HyphensOfPrefix(s: string, n: nat)
    requires n <= |s|
    ensures Hyphens(s[..n]) <= Hyphens(s)
    ensures forall k :: |Hyphens(s[..n])| <= k < |Hyphens(s)| ==> Hyphens(s)[k] >= n
  {
    if n < |s| {
      var s' := s[..|s| - 1];
      assert s[..n] == s'[..n];
      HyphensOfPrefix(s', n);
    } else {
      assert s[..n] == s;
    }
  }

  /** The grouping key of an identifier: everything up to and including the
      second hyphen, or the whole identifier plus a hyphen when it has fewer
      than two. */
  function Prefix(id: string): string {
    var hs := Hyphens(id);
    if |hs| >= 2 then id[..hs[1] + 1] else id + "-"
  }

  /** A prefix always ends in a hyphen. With two or more hyphens in the
      identifier it is the identifier's shortest prefix holding two hyphens;
      otherwise it is the identifier with a hyphen appended. */
  lemma PrefixShape(id: string)
    ensures var p := Prefix(id);
      && |p| > 0 && p[|p| - 1] == '-'
      && (|Hyphens(id)| >= 2 ==> p <= id && |Hyphens(p)| == 2 && |Hyphens(p[..|p| - 1])| == 1)
      && (|Hyphens(id)| < 2 ==> p == id + "-")
  {
    var hs := Hyphens(id);
    HyphensArePositions(id);
    if |hs| >= 2 {
      var n := hs[1] + 1;
      var p := id[..n];
      HyphensOfPrefix(id, n);
      HyphensOfPrefix(id, n - 1);
      assert id[..n - 1] == p[..|p| - 1];
      assert Hyphens(p) == Hyphens(p[..|p| - 1]) + [n - 1];
    }
  }

  /** Conversely, an identifier whose first two hyphens sit at `i` and `j`
      has the prefix that ends at `j`, and one with at most one hyphen has
      itself plus a hyphen. */
  lemma PrefixAtSecondHyphen(id: string, i: nat, j: nat)
    requires i < j < |id| && id[i] == '-' && id[j] == '-'
    requires forall m :: 0 <= m < j && m != i ==> id[m] != '-'
    ensures Prefix(id) == id[..j + 1]
  {
    HyphensArePositions(id);
    var hs := Hyphens(id);
    assert i in hs && j in hs;
    var a :| 0 <= a < |hs| && hs[a] == i;
    var b :| 0 <= b < |hs| && hs[b] == j;
  }

  lemma PrefixOfOneHyphen(id: string)
    requires forall m, n :: 0 <= m < n < |id| ==> !(id[m] == '-' && id[n] == '-')
    ensures Prefix(id) == id + "-"
  {
    FirstTwoHyphens(id);
  }

  /** The first two entries of `Hyphens(id)`, when there are two, are
      hyphens of `id` in increasing order. */
  lemma FirstTwoHyphens(id: string)
    ensures var hs := Hyphens(id);
      |hs| >= 2 ==> hs[0] < hs[1] && id[hs[0]] == '-' && id[hs[1]] == '-'
  {
    HyphensArePositions(id);
  }

  /** `extractPrefix`: collects the hyphen positions in a loop, then cuts. */
  method ExtractPrefix(lineNumber: string) returns (prefix: string)
    ensures prefix == Prefix(lineNumber)
  {
    var hyphens: seq<nat> := [];
    var i := 0;
    while i < |lineNumber|
      invariant 0 <= i <= |lineNumber|
      invariant hyphens == Hyphens(lineNumber[..i])
    {
      assert lineNumber[..i + 1][..i] == lineNumber[..i];
      if lineNumber[i] == '-' {
        hyphens := hyphens + [i];
      }
      i := i + 1;
    }
    assert lineNumber[..i] == lineNumber;
    if |hyphens| >= 2 {
      return lineNumber[..hyphens[1] + 1];
    }
    return lineNumber + "-";
  }

  /** The key of a prefix: the prefix without its last character, the trailing hyphen. */
  function Key(p: string): string {
    if |p| == 0 then "" else p[..|p| - 1]
  }

  /** The key of an identifier's prefix is a prefix of the identifier: the
      identifier itself when it has fewer than two hyphens, otherwise the
      text before its second hyphen. */
  lemma KeyOfPrefix(id: string)
    ensures Key(Prefix(id)) <= id
    ensures |Hyphens(id)| < 2 ==> Key(Prefix(id)) == id
    ensures |Hyphens(id)| >= 2 ==> |Hyphens(Key(Prefix(id)))| == 1
  {
    PrefixShape(id);
    var p := Prefix(id);
    if |Hyphens(id)| < 2 {
      assert (id + "-")[..|id|] == id;
    }
  }

  /** A prefix holds no character the identifier lacks, apart from the hyphen. */
  lemma PrefixKeepsOut(id: string, c: char)
    requires c != '-' && c !in id
    ensures c !in Prefix(id)
  {
    PrefixShape(id);
    var p := Prefix(id);
    if |Hyphens(id)| >= 2 {
      assert forall i :: 0 <= i < |p| ==> p[i] == id[i];
    }
  }

  // ---------------------------------------------------------------------
  // Identifier processing and deduplication
  // ---------------------------------------------------------------------

  datatype LineEntry = LineEntry(original: string, prefix: string)

  /** The blank-line filter followed by the prefix map of `analyzeFiles`. */
  function Processed(lines: seq<string>): (entries: seq<LineEntry>)
    ensures |entries| <= |lines|
  {
    if |lines| == 0 then []
    else
      var rest := Processed(lines[..|lines| - 1]);
      var line := lines[|lines| - 1];
      if Trim(line) == [] then rest else rest + [LineEntry(line, Prefix(line))]
  }

  /** The `blankLines` counter of that filter. */
  function BlankCount(lines: seq<string>): nat {
    if |lines| == 0 then 0
    else BlankCount(lines[..|lines| - 1]) + (if Trim(lines[|lines| - 1]) == [] then 1 else 0)
  }

  /** One entry per line, each with its prefix. */
  function Entries(lines: seq<string>): (entries: seq<LineEntry>)
    ensures |entries| == |lines|
  {
    if |lines| == 0 then []
    else
      var line := lines[|lines| - 1];
      Entries(lines[..|lines| - 1]) + [LineEntry(line, Prefix(line))]
  }

  lemma {:induction false} EntryAt(lines: seq<string>, i: nat)
    requires i < |lines|
    ensures Entries(lines)[i] == LineEntry(lines[i], Prefix(lines[i]))
  {
    if i < |lines| - 1 {
      var lines' := lines[..|lines| - 1];
      EntryAt(lines', i);
      assert Entries(lines)[i] == Entries(lines')[i];
    }
  }

  /** On parsed lines the blank filter removes nothing and counts nothing:
      `blankLines` can never become non-zero. */
  lemma {:induction false} BlankLinesNeverCounted(lines: seq<string>)
    requires forall k :: 0 <= k < |lines| ==> lines[k] != [] && IsTrimmed(lines[k])
    ensures BlankCount(lines) == 0
    ensures Processed(lines) == Entries(lines)
  {
    if |lines| > 0 {
      BlankLinesNeverCounted(lines[..|lines| - 1]);
      TrimOfTrimmed(lines[|lines| - 1]);
    }
  }

  /** The index of the first entry with the given prefix, or -1 when no entry has it. */
  function FindIndex(entries: seq<LineEntry>, prefix: string): (r: int)
    ensures -1 <= r < |entries|
    ensures r >= 0 ==> entries[r].prefix == prefix
    ensures forall j :: 0 <= j < |entries| && (r == -1 || j < r) ==> entries[j].prefix != prefix
  {
    if |entries| == 0 then -1
    else if entries[0].prefix == prefix then 0
    else
      var r := FindIndex(entries[1..], prefix);
      assert forall j :: 1 <= j < |entries| ==> entries[1..][j - 1] == entries[j];
      if r == -1 then -1 else r + 1
  }

  /** Of the first `n` entries, those that are the first with their prefix. */
  function KeepFirst(entries: seq<LineEntry>, n: nat): (u: seq<LineEntry>)
    requires n <= |entries|
    ensures |u| <= n
  {
    if n == 0 then []
    else
      KeepFirst(entries, n - 1)
        + (if FindIndex(entries, entries[n - 1].prefix) == n - 1 then [entries[n - 1]] else [])
  }

  /** `uniqueLineNumbers`. */
  function Unique(entries: seq<LineEntry>): (u: seq<LineEntry>)
    ensures |u| <= |entries|
  {
    KeepFirst(entries, |entries|)
  }

  function Prefixes(u: seq<LineEntry>): (ps: seq<string>)
    ensures |ps| == |u| && forall k :: 0 <= k < |u| ==> ps[k] == u[k].prefix
  {
    seq(|u|, k requires 0 <= k < |u| => u[k].prefix)
  }

  /** The `k`-th kept entry is the first entry with its prefix, among the first `n`. */
  lemma {:induction false} KeepFirstIsFirst(entries: seq<LineEntry>, n: nat, k: nat)
    requires n <= |entries| && k < |KeepFirst(entries, n)|
    ensures 0 <= FindIndex(entries, KeepFirst(entries, n)[k].prefix) < n
    ensures entries[FindIndex(entries, KeepFirst(entries, n)[k].prefix)] == KeepFirst(entries, n)[k]
  {
    var u' := KeepFirst(entries, n - 1);
    var u := KeepFirst(entries, n);
    if k < |u'| {
      assert u[k] == u'[k];
      KeepFirstIsFirst(entries, n - 1, k);
    } else {
      assert u[k] == entries[n - 1];
    }
  }

  /** Kept entries appear in the order of their first occurrences. */
  lemma {:induction false} KeepFirstOrdered(entries: seq<LineEntry>, n: nat, k: nat, l: nat)
    requires n <= |entries| && k < l < |KeepFirst(entries, n)|
    ensures FindIndex(entries, KeepFirst(entries, n)[k].prefix) < FindIndex(entries, KeepFirst(entries, n)[l].prefix)
  {
    var u' := KeepFirst(entries, n - 1);
    var u := KeepFirst(entries, n);
    assert u[k] == u'[k];
    if l < |u'| {
      assert u[l] == u'[l];
      KeepFirstOrdered(entries, n - 1, k, l);
    } else {
      assert u[l] == entries[n - 1];
      KeepFirstIsFirst(entries, n - 1, k);
    }
  }

  lemma {:induction false} KeepFirstCovers(entries: seq<LineEntry>, n: nat)
    requires n <= |entries|
    ensures forall i :: 0 <= i < n ==> entries[i].prefix in Prefixes(KeepFirst(entries, n))
  {
    if n > 0 {
      KeepFirstCovers(entries, n - 1);
      var u' := KeepFirst(entries, n - 1);
      var u := KeepFirst(entries, n);
      assert u[..|u'|] == u';
      assert forall k :: 0 <= k < |u'| ==> Prefixes(u)[k] == Prefixes(u')[k];
      var e := entries[n - 1];
      var f := FindIndex(entries, e.prefix);
      if f == n - 1 {
        assert Prefixes(u)[|u| - 1] == e.prefix;
      } else {
        assert entries[f].prefix in Prefixes(u');
      }
    }
  }

  /** Deduplication keeps, in input order, exactly the first entry of each
      prefix: the kept prefixes are pairwise distinct, each kept entry is the
      first with its prefix, and every entry (dropped or not) has its prefix
      among the kept ones. */
  lemma UniqueFirstOccurrences(entries: seq<LineEntry>)
    ensures var u := Unique(entries);
      && (forall k, l :: 0 <= k < l < |u| ==> u[k].prefix != u[l].prefix)
      && (forall k :: 0 <= k < |u| ==>
            0 <= FindIndex(entries, u[k].prefix) && entries[FindIndex(entries, u[k].prefix)] == u[k])
      && (forall k, l :: 0 <= k < l < |u| ==>
            FindIndex(entries, u[k].prefix) < FindIndex(entries, u[l].prefix))
      && (forall i :: 0 <= i < |entries| ==> entries[i].prefix in Prefixes(u))
  {
    var n := |entries|;
    var u := Unique(entries);
    assert u == KeepFirst(entries, n);
    forall k | 0 <= k < |u|
      ensures 0 <= FindIndex(entries, u[k].prefix) && entries[FindIndex(entries, u[k].prefix)] == u[k]
    {
      KeepFirstIsFirst(entries, n, k);
    }
    forall k, l | 0 <= k < l < |u|
      ensures FindIndex(entries, u[k].prefix) < FindIndex(entries, u[l].prefix)
    {
      KeepFirstOrdered(entries, n, k, l);
    }
    KeepFirstCovers(entries, n);
  }

  /** Entries whose prefixes are already distinct are all kept. */
  lemma {:induction false} KeepFirstOfDistinct(entries: seq<LineEntry>, n: nat)
    requires n <= |entries|
    requires forall k, l :: 0 <= k < l < |entries| ==> entries[k].prefix != entries[l].prefix
    ensures KeepFirst(entries, n) == entries[..n]
  {
    if n > 0 {
      KeepFirstOfDistinct(entries, n - 1);
      assert FindIndex(entries, entries[n - 1].prefix) == n - 1;
      assert entries[..n] == entries[..n - 1] + [entries[n - 1]];
    }
  }

  // ---------------------------------------------------------------------
  // Filename classification
  // ---------------------------------------------------------------------

  datatype Kind = Upvf | Upvc

  function Extension(kind: Kind): string {
    match kind
    case Upvf => "upvf"
    case Upvc => "upvc"
  }

  /** Matching a filename against "one or more characters other than line
      terminators, a dot, then the lower-case extension `ext` in any letter
      case": the base before the dot when it matches. */
  function MatchSuffix(filename: string, ext: string): Option<string> {
    var n := |ext| + 1;
    if |filename| > n && Lower(filename[|filename| - n..]) == "." + ext
       && forall i :: 0 <= i < |filename| - n ==> !IsLineTerminator(filename[i])
    then Some(filename[..|filename| - n])
    else None
  }

  datatype Classification = Malformed | Classified(kind: Kind, base: string)

  /** The `.upvf` test, then the `.upvc` test. */
  function Classify(filename: string): Classification {
    match MatchSuffix(filename, "upvf")
    case Some(b) => Classified(Upvf, b)
    case None =>
      match MatchSuffix(filename, "upvc")
      case Some(b) => Classified(Upvc, b)
      case None => Malformed
  }

  /** A classified filename is a non-empty base without line terminators,
      followed by its extension in any letter case. */
  lemma ClassifySound(filename: string)
    ensures match Classify(filename)
      case Malformed => true
      case Classified(k, b) =>
        && b != [] && b <= filename
        && Lower(filename[|b|..]) == "." + Extension(k)
        && forall i :: 0 <= i < |b| ==> !IsLineTerminator(b[i])
  {
  }

  /** Conversely, every such filename is classified with that base. */
  lemma ClassifyComplete(base: string, suffix: string, kind: Kind)
    requires base != []
    requires forall i :: 0 <= i < |base| ==> !IsLineTerminator(base[i])
    requires Lower(suffix) == "." + Extension(kind)
    ensures Classify(base + suffix) == Classified(kind, base)
  {
    var f := base + suffix;
    assert f[..|base|] == base;
    assert f[|f| - 5..] == suffix;
    if kind == Upvc {
      assert Lower(suffix)[4] == 'c';
      assert MatchSuffix(f, "upvf") == None;
    }
  }

  // ---------------------------------------------------------------------
  // Matching
  // ---------------------------------------------------------------------

  /** The index of the first retained entry whose key starts the base name. */
  function FirstMatch(unique: seq<LineEntry>, base: string): (r: Option<nat>)
    ensures r.Some? ==> r.value < |unique| && Key(unique[r.value].prefix) <= base
    ensures forall j :: 0 <= j < |unique| && (r.None? || j < r.value) ==> !(Key(unique[j].prefix) <= base)
  {
    if |unique| == 0 then None
    else if Key(unique[0].prefix) <= base then Some(0)
    else
      var r := FirstMatch(unique[1..], base);
      assert forall j :: 1 <= j < |unique| ==> unique[1..][j - 1] == unique[j];
      match r
      case None => None
      case Some(m) => Some(m + 1)
  }

  datatype OrphanFile = OrphanFile(filename: string, lineNumber: string, extension: Kind)

  /** Where the loop body over filenames sends one filename. */
  datatype Route = ToBucket(kind: Kind, index: nat) | ToOrphan(kind: Kind, base: string) | Dropped

  function RouteOf(unique: seq<LineEntry>, filename: string): (r: Route)
    ensures r.ToBucket? ==> r.index < |unique|
  {
    match Classify(filename)
    case Malformed => Dropped
    case Classified(k, b) =>
      match FirstMatch(unique, b)
      case Some(m) => ToBucket(k, m)
      case None => ToOrphan(k, b)
  }

  /** `f` is filed in the `kind` bucket of the retained entry whose prefix is `p`. */
  predicate FiledUnder(unique: seq<LineEntry>, f: string, kind: Kind, p: string) {
    var r := RouteOf(unique, f);
    r.ToBucket? && r.kind == kind && unique[r.index].prefix == p
  }

  /** The filenames filed under prefix `p` for `kind`, in input order: the
      reference against which the dictionaries are checked. */
  function Bucket(unique: seq<LineEntry>, files: seq<string>, kind: Kind, p: string): (b: seq<string>)
    ensures |b| <= |files|
  {
    if |files| == 0 then []
    else
      var f := files[|files| - 1];
      Bucket(unique, files[..|files| - 1], kind, p) + (if FiledUnder(unique, f, kind, p) then [f] else [])
  }

  /** The list a dictionary holds for a key, the empty list when the key is absent. */
  function Lookup(m: map<string, seq<string>>, key: string): seq<string> {
    if key in m then m[key] else []
  }

  /** The `upvfFiles` or `upvcFiles` dictionary after the loop over `files`:
      a filename routed to a bucket of `kind` is appended to the list of its
      prefix, which starts out empty. */
  function Buckets(unique: seq<LineEntry>, files: seq<string>, kind: Kind): map<string, seq<string>> {
    if |files| == 0 then map[]
    else
      var m := Buckets(unique, files[..|files| - 1], kind);
      var f := files[|files| - 1];
      var r := RouteOf(unique, f);
      if r.ToBucket? && r.kind == kind then
        var p := unique[r.index].prefix;
        m[p := Lookup(m, p) + [f]]
      else m
  }

  /** Every dictionary entry lists exactly the filenames filed under its key,
      in input order, and every key is the prefix of a retained entry. */
  lemma {:induction false} BucketsAreFilters(unique: seq<LineEntry>, files: seq<string>, kind: Kind, p: string)
    ensures Lookup(Buckets(unique, files, kind), p) == Bucket(unique, files, kind, p)
    ensures p in Buckets(unique, files, kind) ==> p in Prefixes(unique)
  {
    if |files| > 0 {
      BucketsAreFilters(unique, files[..|files| - 1], kind, p);
      var r := RouteOf(unique, files[|files| - 1]);
      if r.ToBucket? && r.kind == kind && unique[r.index].prefix == p {
        assert Prefixes(unique)[r.index] == p;
      }
    }
  }

  /** A bucket only holds filenames from the input. */
  lemma {:induction false} BucketFromFiles(unique: seq<LineEntry>, files: seq<string>, kind: Kind, p: string, x: string)
    requires x in Bucket(unique, files, kind, p)
    ensures x in files
  {
    var files' := files[..|files| - 1];
    if x !in Bucket(unique, files', kind, p) {
      assert x == files[|files| - 1];
    } else {
      BucketFromFiles(unique, files', kind, p, x);
      assert files' <= files;
    }
  }

  /** The `orphans` array after the loop over `files`. */
  function Orphans(unique: seq<LineEntry>, files: seq<string>): (os: seq<OrphanFile>)
    ensures |os| <= |files|
    ensures forall k :: 0 <= k < |os| ==>
              && Classify(os[k].filename) == Classified(os[k].extension, os[k].lineNumber)
              && FirstMatch(unique, os[k].lineNumber).None?
  {
    if |files| == 0 then []
    else
      var f := files[|files| - 1];
      Orphans(unique, files[..|files| - 1])
        + match RouteOf(unique, f)
          case ToOrphan(k, b) => [OrphanFile(f, b, k)]
          case _ => []
  }

  /** An orphan record is exactly an input filename whose route is the
      orphan list, with the base and kind of that route. */
  lemma {:induction false} OrphansMembers(unique: seq<LineEntry>, files: seq<string>, o: OrphanFile)
    ensures o in Orphans(unique, files)
      <==> o.filename in files && RouteOf(unique, o.filename) == ToOrphan(o.extension, o.lineNumber)
  {
    if |files| > 0 {
      var files' := files[..|files| - 1];
      OrphansMembers(unique, files', o);
      assert files == files' + [files[|files| - 1]];
    }
  }

  /** Orphans are listed in input order: the orphans of a concatenation are
      the orphans of its parts, one after the other. */
  lemma {:induction false} OrphansConcat(unique: seq<LineEntry>, a: seq<string>, b: seq<string>)
    ensures Orphans(unique, a + b) == Orphans(unique, a) + Orphans(unique, b)
  {
    if |b| > 0 {
      var b' := b[..|b| - 1];
      OrphansConcat(unique, a, b');
      assert (a + b)[..|a + b| - 1] == a + b';
    } else {
      assert a + b == a;
    }
  }

  /** The `malformedEntries` counter after the loop over `files`. */
  function MalformedCount(files: seq<string>): nat {
    if |files| == 0 then 0
    else MalformedCount(files[..|files| - 1]) + (if Classify(files[|files| - 1]).Malformed? then 1 else 0)
  }

  // ---------------------------------------------------------------------
  // Records and statistics
  // ---------------------------------------------------------------------

  datatype Status = Complete | MissingUpvf | MissingUpvc | MissingBoth

  /** The four-way status rule: exhaustive and exclusive. */
  function StatusOf(hasUpvf: bool, hasUpvc: bool): (s: Status)
    ensures s == Complete <==> hasUpvf && hasUpvc
    ensures s == MissingBoth <==> !hasUpvf && !hasUpvc
    ensures s == MissingUpvf <==> !hasUpvf && hasUpvc
    ensures s == MissingUpvc <==> hasUpvf && !hasUpvc
  {
    if hasUpvf && hasUpvc then Complete
    else if !hasUpvf && !hasUpvc then MissingBoth
    else if !hasUpvf then MissingUpvf
    else MissingUpvc
  }

  datatype FileAnalysisResult = FileAnalysisResult(
    lineNumber: string,
    extractedPrefix: string,
    hasUpvf: bool,
    hasUpvc: bool,
    status: Status,
    upvfFiles: seq<string>,
    upvcFiles: seq<string>)

  /** The record of one retained entry given the two dictionaries. */
  function MakeResult(e: LineEntry, upvfFiles: map<string, seq<string>>, upvcFiles: map<string, seq<string>>): FileAnalysisResult {
    var upvf := Lookup(upvfFiles, e.prefix);
    var upvc := Lookup(upvcFiles, e.prefix);
    FileAnalysisResult(e.original, e.prefix, upvf != [], upvc != [], StatusOf(upvf != [], upvc != []), upvf, upvc)
  }

  /** `analysisResults`: one record per retained entry, in order. */
  function Results(unique: seq<LineEntry>, upvfFiles: map<string, seq<string>>, upvcFiles: map<string, seq<string>>): (rs: seq<FileAnalysisResult>)
    ensures |rs| == |unique|
  {
    seq(|unique|, k requires 0 <= k < |unique| => MakeResult(unique[k], upvfFiles, upvcFiles))
  }

  /** One more retained entry adds its record at the end. */
  lemma ResultsStep(unique: seq<LineEntry>, k: nat, upvfFiles: map<string, seq<string>>, upvcFiles: map<string, seq<string>>)
    requires k < |unique|
    ensures Results(unique[..k + 1], upvfFiles, upvcFiles)
      == Results(unique[..k], upvfFiles, upvcFiles) + [MakeResult(unique[k], upvfFiles, upvcFiles)]
  {
    var a := Results(unique[..k + 1], upvfFiles, upvcFiles);
    var b := Results(unique[..k], upvfFiles, upvcFiles) + [MakeResult(unique[k], upvfFiles, upvcFiles)];
    assert forall i :: 0 <= i < |a| ==> a[i] == b[i];
  }

  /** How many records carry status `s`. */
  function CountStatus(rs: seq<FileAnalysisResult>, s: Status): nat {
    if |rs| == 0 then 0
    else CountStatus(rs[..|rs| - 1], s) + (if rs[|rs| - 1].status == s then 1 else 0)
  }

  lemma CountStep(rs: seq<FileAnalysisResult>, r: FileAnalysisResult, s: Status)
    ensures CountStatus(rs + [r], s) == CountStatus(rs, s) + (if r.status == s then 1 else 0)
  {
    assert (rs + [r])[..|rs|] == rs;
  }

  datatype AnalysisStats = AnalysisStats(
    totalLines: nat,
    completeMatches: nat,
    missingUpvf: nat,
    missingUpvc: nat,
    missingBoth: nat,
    orphanFiles: nat,
    duplicateLines: nat,
    blankLines: nat,
    malformedEntries: nat)

  datatype Analysis = Analysis(results: seq<FileAnalysisResult>, orphans: seq<OrphanFile>, stats: AnalysisStats)

  /** The analysis of already split identifier and filename lines. */
  function AnalyzeLines(lineNumbers: seq<string>, filenames: seq<string>): Analysis {
    var processed := Processed(lineNumbers);
    var unique := Unique(processed);
    var results := Results(unique, Buckets(unique, filenames, Upvf), Buckets(unique, filenames, Upvc));
    var orphans := Orphans(unique, filenames);
    Analysis(results, orphans, AnalysisStats(
      totalLines := |unique|,
      completeMatches := CountStatus(results, Complete),
      missingUpvf := CountStatus(results, MissingUpvf),
      missingUpvc := CountStatus(results, MissingUpvc),
      missingBoth := CountStatus(results, MissingBoth),
      orphanFiles := |orphans|,
      duplicateLines := |processed| - |unique|,
      blankLines := BlankCount(lineNumbers),
      malformedEntries := MalformedCount(filenames)))
  }

  /** `analyzeFiles` as a value: nothing when either input is blank. */
  function Analyze(column1Data: string, column2Data: string): (r: Option<Analysis>)
    ensures r.None? <==> AllWhitespace(column1Data) || AllWhitespace(column2Data)
  {
    TrimEmptyIff(column1Data);
    TrimEmptyIff(column2Data);
    if Trim(column1Data) == [] || Trim(column2Data) == [] then None
    else Some(AnalyzeLines(ParseData(column1Data), ParseData(column2Data)))
  }

  // ---------------------------------------------------------------------
  // Properties of the analysis
  // ---------------------------------------------------------------------

  /** Record `k` describes the `k`-th retained entry: its identifier and
      prefix, the filenames filed under that prefix for each extension, the
      two flags, which hold exactly when a bucket is non-empty, and the
      status the flags give. */
  lemma RecordAt(lineNumbers: seq<string>, filenames: seq<string>, k: nat)
    requires k < |Unique(Processed(lineNumbers))|
    ensures var unique := Unique(Processed(lineNumbers));
      var rs := AnalyzeLines(lineNumbers, filenames).results;
      && |rs| == |unique|
      && rs[k].lineNumber == unique[k].original
      && rs[k].extractedPrefix == unique[k].prefix
      && rs[k].upvfFiles == Bucket(unique, filenames, Upvf, unique[k].prefix)
      && rs[k].upvcFiles == Bucket(unique, filenames, Upvc, unique[k].prefix)
      && (rs[k].hasUpvf <==> rs[k].upvfFiles != [])
      && (rs[k].hasUpvc <==> rs[k].upvcFiles != [])
      && rs[k].status == StatusOf(rs[k].hasUpvf, rs[k].hasUpvc)
  {
    var unique := Unique(Processed(lineNumbers));
    BucketsAreFilters(unique, filenames, Upvf, unique[k].prefix);
    BucketsAreFilters(unique, filenames, Upvc, unique[k].prefix);
  }

  /** Every record has exactly one of the four statuses. */
  lemma {:induction false} StatusCountsSum(rs: seq<FileAnalysisResult>)
    ensures CountStatus(rs, Complete) + CountStatus(rs, MissingUpvf)
            + CountStatus(rs, MissingUpvc) + CountStatus(rs, MissingBoth) == |rs|
  {
    if |rs| > 0 {
      StatusCountsSum(rs[..|rs| - 1]);
    }
  }

  /** The statistics of an analysis: `blankLines` is always 0, every parsed
      identifier is either retained or counted as a duplicate, the four
      status counters add up to `totalLines`, and `orphanFiles` counts the
      orphan list. */
  lemma AnalyzeStats(column1Data: string, column2Data: string)
    requires Analyze(column1Data, column2Data).Some?
    ensures var a := Analyze(column1Data, column2Data).value;
      && a.stats.blankLines == 0
      && a.stats.duplicateLines + a.stats.totalLines == |ParseData(column1Data)|
      && a.stats.totalLines == |a.results|
      && a.stats.completeMatches + a.stats.missingUpvf + a.stats.missingUpvc + a.stats.missingBoth == a.stats.totalLines
      && a.stats.orphanFiles == |a.orphans|
  {
    var lines := ParseData(column1Data);
    BlankLinesNeverCounted(lines);
    var a := AnalyzeLines(lines, ParseData(column2Data));
    StatusCountsSum(a.results);
  }

  /** An identifier's own `.upvf` / `.upvc` file is never an orphan: it is
      filed under that identifier's prefix or under an earlier retained one. */
  lemma OwnFileIsFiled(unique: seq<LineEntry>, k: nat, suffix: string, kind: Kind)
    requires k < |unique| && unique[k].prefix == Prefix(unique[k].original)
    requires unique[k].original != []
    requires forall i :: 0 <= i < |unique[k].original| ==> !IsLineTerminator(unique[k].original[i])
    requires Lower(suffix) == "." + Extension(kind)
    ensures var r := RouteOf(unique, unique[k].original + suffix);
      r.ToBucket? && r.kind == kind && r.index <= k
  {
    ClassifyComplete(unique[k].original, suffix, kind);
    KeyOfPrefix(unique[k].original);
  }

  /** No field of a record of an analysis holds a newline: identifiers and
      filenames come out of `parseData`, and prefixes are cut from
      identifiers. */
  lemma RecordHasNoNewline(column1Data: string, column2Data: string, k: nat)
    requires Analyze(column1Data, column2Data).Some?
    requires k < |Analyze(column1Data, column2Data).value.results|
    ensures var r := Analyze(column1Data, column2Data).value.results[k];
      && '\n' !in r.lineNumber && '\n' !in r.extractedPrefix
      && (forall i :: 0 <= i < |r.upvfFiles| ==> '\n' !in r.upvfFiles[i])
      && (forall i :: 0 <= i < |r.upvcFiles| ==> '\n' !in r.upvcFiles[i])
  {
    var lines := ParseData(column1Data);
    var files := ParseData(column2Data);
    BlankLinesNeverCounted(lines);
    var entries := Processed(lines);
    var unique := Unique(entries);
    assert unique == KeepFirst(entries, |entries|);
    KeepFirstIsFirst(entries, |entries|, k);
    var j := FindIndex(entries, unique[k].prefix);
    EntryAt(lines, j);
    PrefixKeepsOut(lines[j], '\n');
    RecordAt(lines, files, k);
    var r := Analyze(column1Data, column2Data).value.results[k];
    forall i | 0 <= i < |r.upvfFiles| ensures '\n' !in r.upvfFiles[i] {
      BucketFromFiles(unique, files, Upvf, unique[k].prefix, r.upvfFiles[i]);
    }
    forall i | 0 <= i < |r.upvcFiles| ensures '\n' !in r.upvcFiles[i] {
      BucketFromFiles(unique, files, Upvc, unique[k].prefix, r.upvcFiles[i]);
    }
  }

  /** The number of bucketed filenames over the first `n` records. */
  function FiledInRecords(rs: seq<FileAnalysisResult>, n: nat): nat
    requires n <= |rs|
  {
    if n == 0 then 0 else FiledInRecords(rs, n - 1) + |rs[n - 1].upvfFiles| + |rs[n - 1].upvcFiles|
  }

  /** How many of the first `n` retained prefixes `f` is filed under for `kind`. */
  function Hits(unique: seq<LineEntry>, f: string, kind: Kind, n: nat): nat
    requires n <= |unique|
  {
    if n == 0 then 0 else Hits(unique, f, kind, n - 1) + (if FiledUnder(unique, f, kind, unique[n - 1].prefix) then 1 else 0)
  }

  predicate DistinctPrefixes(unique: seq<LineEntry>) {
    forall k, l :: 0 <= k < l < |unique| ==> unique[k].prefix != unique[l].prefix
  }

  /** With distinct prefixes a filename is filed under at most one of them:
      the one its route names. */
  lemma {:induction false} HitsAtMostOne(unique: seq<LineEntry>, f: string, kind: Kind, n: nat)
    requires n <= |unique| && DistinctPrefixes(unique)
    ensures var r := RouteOf(unique, f);
      Hits(unique, f, kind, n) == if r.ToBucket? && r.kind == kind && r.index < n then 1 else 0
  {
    if n > 0 {
      HitsAtMostOne(unique, f, kind, n - 1);
    }
  }

  /** The number of filenames routed to a bucket of `kind`. */
  function RoutedCount(unique: seq<LineEntry>, files: seq<string>, kind: Kind): nat {
    if |files| == 0 then 0
    else
      var r := RouteOf(unique, files[|files| - 1]);
      RoutedCount(unique, files[..|files| - 1], kind) + (if r.ToBucket? && r.kind == kind then 1 else 0)
  }

  /** The sizes of the buckets of the first `n` prefixes. */
  function BucketSizes(unique: seq<LineEntry>, files: seq<string>, kind: Kind, n: nat): nat
    requires n <= |unique|
  {
    if n == 0 then 0 else BucketSizes(unique, files, kind, n - 1) + |Bucket(unique, files, kind, unique[n - 1].prefix)|
  }

  lemma {:induction false} BucketSizesStep(unique: seq<LineEntry>, files: seq<string>, f: string, kind: Kind, n: nat)
    requires n <= |unique|
    ensures BucketSizes(unique, files + [f], kind, n) == BucketSizes(unique, files, kind, n) + Hits(unique, f, kind, n)
  {
    if n > 0 {
      BucketSizesStep(unique, files, f, kind, n - 1);
      assert (files + [f])[..|files|] == files;
    }
  }

  lemma {:induction false} BucketSizesNoFiles(unique: seq<LineEntry>, kind: Kind, n: nat)
    requires n <= |unique|
    ensures BucketSizes(unique, [], kind, n) == 0
  {
    if n > 0 {
      BucketSizesNoFiles(unique, kind, n - 1);
    }
  }

  /** With distinct prefixes the buckets together hold each routed filename once. */
  lemma {:induction false} BucketSizesCountRouted(unique: seq<LineEntry>, files: seq<string>, kind: Kind)
    requires DistinctPrefixes(unique)
    ensures BucketSizes(unique, files, kind, |unique|) == RoutedCount(unique, files, kind)
  {
    if |files| > 0 {
      var files' := files[..|files| - 1];
      var f := files[|files| - 1];
      BucketSizesCountRouted(unique, files', kind);
      assert files == files' + [f];
      BucketSizesStep(unique, files', f, kind, |unique|);
      HitsAtMostOne(unique, f, kind, |unique|);
      var r := RouteOf(unique, f);
      assert Hits(unique, f, kind, |unique|) == if r.ToBucket? && r.kind == kind then 1 else 0;
      assert RoutedCount(unique, files, kind) == RoutedCount(unique, files', kind) + Hits(unique, f, kind, |unique|);
      assert BucketSizes(unique, files, kind, |unique|) == BucketSizes(unique, files' + [f], kind, |unique|);
    } else {
      BucketSizesNoFiles(unique, kind, |unique|);
    }
  }

  /** Every filename takes exactly one route. */
  lemma {:induction false} RoutesPartition(unique: seq<LineEntry>, files: seq<string>)
    ensures RoutedCount(unique, files, Upvf) + RoutedCount(unique, files, Upvc)
            + |Orphans(unique, files)| + MalformedCount(files) == |files|
  {
    if |files| > 0 {
      RoutesPartition(unique, files[..|files| - 1]);
    }
  }

  /** Records whose lists are the buckets hold, over the first `n`, as many
      filenames as those buckets. */
  lemma {:induction false} FiledInBuckets(rs: seq<FileAnalysisResult>, unique: seq<LineEntry>, files: seq<string>, n: nat)
    requires n <= |rs| == |unique|
    requires forall k {:trigger rs[k]} :: 0 <= k < |rs| ==>
      rs[k].upvfFiles == Bucket(unique, files, Upvf, unique[k].prefix)
      && rs[k].upvcFiles == Bucket(unique, files, Upvc, unique[k].prefix)
    ensures FiledInRecords(rs, n) == BucketSizes(unique, files, Upvf, n) + BucketSizes(unique, files, Upvc, n)
  {
    if n > 0 {
      FiledInBuckets(rs, unique, files, n - 1);
      var r, p := rs[n - 1], unique[n - 1].prefix;
      assert r.upvfFiles == Bucket(unique, files, Upvf, p) && r.upvcFiles == Bucket(unique, files, Upvc, p);
      assert FiledInRecords(rs, n) == FiledInRecords(rs, n - 1) + |r.upvfFiles| + |r.upvcFiles|;
      assert BucketSizes(unique, files, Upvf, n) == BucketSizes(unique, files, Upvf, n - 1) + |Bucket(unique, files, Upvf, p)|;
      assert BucketSizes(unique, files, Upvc, n) == BucketSizes(unique, files, Upvc, n - 1) + |Bucket(unique, files, Upvc, p)|;
    }
  }

  lemma FiledInResults(unique: seq<LineEntry>, files: seq<string>)
    ensures var rs := Results(unique, Buckets(unique, files, Upvf), Buckets(unique, files, Upvc));
      FiledInRecords(rs, |rs|) == BucketSizes(unique, files, Upvf, |unique|) + BucketSizes(unique, files, Upvc, |unique|)
  {
    var upvf, upvc := Buckets(unique, files, Upvf), Buckets(unique, files, Upvc);
    var rs := Results(unique, upvf, upvc);
    forall k | 0 <= k < |rs|
      ensures rs[k].upvfFiles == Bucket(unique, files, Upvf, unique[k].prefix)
      ensures rs[k].upvcFiles == Bucket(unique, files, Upvc, unique[k].prefix)
    {
      BucketsAreFilters(unique, files, Upvf, unique[k].prefix);
      BucketsAreFilters(unique, files, Upvc, unique[k].prefix);
    }
    FiledInBuckets(rs, unique, files, |rs|);
  }

  /** Conservation of filenames: the files in the records' buckets, the
      orphans and the malformed entries together account for every parsed
      filename exactly once. */
  lemma Conservation(lineNumbers: seq<string>, filenames: seq<string>)
    ensures var a := AnalyzeLines(lineNumbers, filenames);
      FiledInRecords(a.results, |a.results|) + a.stats.orphanFiles + a.stats.malformedEntries == |filenames|
  {
    var unique := Unique(Processed(lineNumbers));
    UniqueFirstOccurrences(Processed(lineNumbers));
    FiledInResults(unique, filenames);
    BucketSizesCountRouted(unique, filenames, Upvf);
    BucketSizesCountRouted(unique, filenames, Upvc);
    RoutesPartition(unique, filenames);
  }

  // ---------------------------------------------------------------------
  // The imperative `analyzeFiles`
  // ---------------------------------------------------------------------

  /** The first loop of `analyzeFiles`: blank lines are counted, the others
      are paired with their prefix. */
  method ProcessLines(lineNumbers: seq<string>) returns (processed: seq<LineEntry>, blankLines: nat)
    ensures processed == Processed(lineNumbers)
    ensures blankLines == BlankCount(lineNumbers)
  {
    processed, blankLines := [], 0;
    var i := 0;
    while i < |lineNumbers|
      invariant 0 <= i <= |lineNumbers|
      invariant processed == Processed(lineNumbers[..i])
      invariant blankLines == BlankCount(lineNumbers[..i])
    {
      var line := lineNumbers[i];
      assert lineNumbers[..i + 1] == lineNumbers[..i] + [line];
      assert (lineNumbers[..i] + [line])[..i] == lineNumbers[..i];
      if Trim(line) == [] {
        blankLines := blankLines + 1;
      } else {
        var prefix := ExtractPrefix(line);
        processed := processed + [LineEntry(line, prefix)];
      }
      i := i + 1;
    }
    assert lineNumbers[..i] == lineNumbers;
  }

  /** One more filename extends the dictionary of `kind` along its route. */
  lemma BucketsStep(unique: seq<LineEntry>, files: seq<string>, f: string, kind: Kind)
    ensures var r := RouteOf(unique, f);
      var m := Buckets(unique, files, kind);
      Buckets(unique, files + [f], kind)
        == if r.ToBucket? && r.kind == kind then m[unique[r.index].prefix := Lookup(m, unique[r.index].prefix) + [f]] else m
  {
    assert (files + [f])[..|files|] == files;
  }

  /** One more filename extends the orphans and the malformed counter along its route. */
  lemma LeftoversStep(unique: seq<LineEntry>, files: seq<string>, f: string)
    ensures Orphans(unique, files + [f])
      == Orphans(unique, files) + match RouteOf(unique, f) case ToOrphan(k, b) => [OrphanFile(f, b, k)] case _ => []
    ensures MalformedCount(files + [f]) == MalformedCount(files) + (if Classify(f).Malformed? then 1 else 0)
  {
    assert (files + [f])[..|files|] == files;
  }

  /** The body of the loop over filenames: the filename is filed under its
      matching prefix, kept as an orphan, or counted as malformed. */
  method FileOne(unique: seq<LineEntry>, ghost files: seq<string>, filename: string,
                 upvfFiles: map<string, seq<string>>, upvcFiles: map<string, seq<string>>,
                 orphans: seq<OrphanFile>, malformedEntries: nat)
    returns (upvfFiles': map<string, seq<string>>, upvcFiles': map<string, seq<string>>,
             orphans': seq<OrphanFile>, malformedEntries': nat)
    requires upvfFiles == Buckets(unique, files, Upvf) && upvcFiles == Buckets(unique, files, Upvc)
    requires orphans == Orphans(unique, files) && malformedEntries == MalformedCount(files)
    ensures upvfFiles' == Buckets(unique, files + [filename], Upvf)
    ensures upvcFiles' == Buckets(unique, files + [filename], Upvc)
    ensures orphans' == Orphans(unique, files + [filename])
    ensures malformedEntries' == MalformedCount(files + [filename])
  {
    BucketsStep(unique, files, filename, Upvf);
    BucketsStep(unique, files, filename, Upvc);
    LeftoversStep(unique, files, filename);
    upvfFiles', upvcFiles', orphans', malformedEntries' := upvfFiles, upvcFiles, orphans, malformedEntries;
    var upvfMatch := MatchSuffix(filename, "upvf");
    var upvcMatch := MatchSuffix(filename, "upvc");
    if upvfMatch.Some? {
      var baseFileName := upvfMatch.value;
      var matching := FirstMatch(unique, baseFileName);
      if matching.Some? {
        var prefix := unique[matching.value].prefix;
        upvfFiles' := upvfFiles[prefix := Lookup(upvfFiles, prefix) + [filename]];
      } else {
        orphans' := orphans + [OrphanFile(filename, baseFileName, Upvf)];
      }
    } else if upvcMatch.Some? {
      var baseFileName := upvcMatch.value;
      var matching := FirstMatch(unique, baseFileName);
      if matching.Some? {
        var prefix := unique[matching.value].prefix;
        upvcFiles' := upvcFiles[prefix := Lookup(upvcFiles, prefix) + [filename]];
      } else {
        orphans' := orphans + [OrphanFile(filename, baseFileName, Upvc)];
      }
    } else {
      malformedEntries' := malformedEntries + 1;
    }
  }

  /** Taking one more element of a sequence appends that element. */
  lemma TakeOneMore<T>(s: seq<T>, j: nat)
    requires j < |s|
    ensures s[..j + 1] == s[..j] + [s[j]]
  {
  }

  /** The loop over all filenames. */
  method FileAll(unique: seq<LineEntry>, filenames: seq<string>)
    returns (upvfFiles: map<string, seq<string>>, upvcFiles: map<string, seq<string>>,
             orphans: seq<OrphanFile>, malformedEntries: nat)
    ensures upvfFiles == Buckets(unique, filenames, Upvf)
    ensures upvcFiles == Buckets(unique, filenames, Upvc)
    ensures orphans == Orphans(unique, filenames)
    ensures malformedEntries == MalformedCount(filenames)
  {
    upvfFiles, upvcFiles, orphans, malformedEntries := map[], map[], [], 0;
    var j := 0;
    while j < |filenames|
      invariant 0 <= j <= |filenames|
      invariant upvfFiles == Buckets(unique, filenames[..j], Upvf)
      invariant upvcFiles == Buckets(unique, filenames[..j], Upvc)
      invariant orphans == Orphans(unique, filenames[..j])
      invariant malformedEntries == MalformedCount(filenames[..j])
    {
      TakeOneMore(filenames, j);
      upvfFiles, upvcFiles, orphans, malformedEntries :=
        FileOne(unique, filenames[..j], filenames[j], upvfFiles, upvcFiles, orphans, malformedEntries);
      j := j + 1;
    }
    assert filenames[..j] == filenames;
  }

  /** The loop building one record per retained entry and tallying the statuses. */
  method Tally(unique: seq<LineEntry>, upvfFiles: map<string, seq<string>>, upvcFiles: map<string, seq<string>>)
    returns (results: seq<FileAnalysisResult>, completeMatches: nat, missingUpvf: nat,
             missingUpvc: nat, missingBoth: nat)
    ensures results == Results(unique, upvfFiles, upvcFiles)
    ensures completeMatches == CountStatus(results, Complete)
    ensures missingUpvf == CountStatus(results, MissingUpvf)
    ensures missingUpvc == CountStatus(results, MissingUpvc)
    ensures missingBoth == CountStatus(results, MissingBoth)
  {
    results := [];
    completeMatches, missingUpvf, missingUpvc, missingBoth := 0, 0, 0, 0;
    var k := 0;
    while k < |unique|
      invariant 0 <= k <= |unique|
      invariant |results| == k
      invariant results == Results(unique[..k], upvfFiles, upvcFiles)
      invariant completeMatches == CountStatus(results, Complete)
      invariant missingUpvf == CountStatus(results, MissingUpvf)
      invariant missingUpvc == CountStatus(results, MissingUpvc)
      invariant missingBoth == CountStatus(results, MissingBoth)
    {
      var entry := unique[k];
      var prefix := entry.prefix;
      var hasUpvf := prefix in upvfFiles && |upvfFiles[prefix]| > 0;
      var hasUpvc := prefix in upvcFiles && |upvcFiles[prefix]| > 0;
      var status;
      if hasUpvf && hasUpvc {
        status := Complete;
        completeMatches := completeMatches + 1;
      } else if !hasUpvf && !hasUpvc {
        status := MissingBoth;
        missingBoth := missingBoth + 1;
      } else if !hasUpvf {
        status := MissingUpvf;
        missingUpvf := missingUpvf + 1;
      } else {
        status := MissingUpvc;
        missingUpvc := missingUpvc + 1;
      }
      var result := FileAnalysisResult(entry.original, prefix, hasUpvf, hasUpvc, status,
                                        Lookup(upvfFiles, prefix), Lookup(upvcFiles, prefix));
      assert result == MakeResult(entry, upvfFiles, upvcFiles);
      CountStep(results, result, Complete);
      CountStep(results, result, MissingUpvf);
      CountStep(results, result, MissingUpvc);
      CountStep(results, result, MissingBoth);
      ResultsStep(unique, k, upvfFiles, upvcFiles);
      results := results + [result];
      k := k + 1;
    }
    assert unique[..k] == unique;
  }

  /** `analyzeFiles`, step by step: the counters, the two dictionaries of
      buckets and the orphan list are updated while the inputs are scanned,
      then the records are built and tallied. */
  method AnalyzeFiles(column1Data: string, column2Data: string) returns (r: Option<Analysis>)
    ensures r == Analyze(column1Data, column2Data)
  {
    if Trim(column1Data) == [] || Trim(column2Data) == [] {
      return None;
    }
    var lineNumbers := ParseData(column1Data);
    var filenames := ParseData(column2Data);
    var processed, blankLines := ProcessLines(lineNumbers);
    var unique := Unique(processed);
    var duplicateLines := |processed| - |unique|;
    var totalLines := |unique|;
    var upvfFiles, upvcFiles, orphans, malformedEntries := FileAll(unique, filenames);
    var results, completeMatches, missingUpvf, missingUpvc, missingBoth :=
      Tally(unique, upvfFiles, upvcFiles);
    var stats := AnalysisStats(
      totalLines := totalLines,
      completeMatches := completeMatches,
      missingUpvf := missingUpvf,
      missingUpvc := missingUpvc,
      missingBoth := missingBoth,
      orphanFiles := |orphans|,
      duplicateLines := duplicateLines,
      blankLines := blankLines,
      malformedEntries := malformedEntries);
    return Some(Analysis(results, orphans, stats));
  }
}

=== FILE: report.dfy ===
/** What the analysis page derives from the records: the per-status tallies
    shown on the filter panel, the status filter, and the CSV export. */
module Report {
  import opened JsString
  import opened Matcher

  // ---------------------------------------------------------------------
  // Per-status tallies
  // ---------------------------------------------------------------------

  /** The records that carry status `s`, in order. */
  function WithStatus(rs: seq<FileAnalysisResult>, s: Status): (out: seq<FileAnalysisResult>)
    ensures forall k :: 0 <= k < |out| ==> out[k].status == s
  {
    if |rs| == 0 then []
    else WithStatus(rs[..|rs| - 1], s) + (if rs[|rs| - 1].status == s then [rs[|rs| - 1]] else [])
  }

  /** The length of that filter is the status counter the analysis keeps. */
  lemma {:induction false} WithStatusCounts(rs: seq<FileAnalysisResult>, s: Status)
    ensures |WithStatus(rs, s)| == CountStatus(rs, s)
  {
    if |rs| > 0 {
      WithStatusCounts(rs[..|rs| - 1], s);
    }
  }

  datatype Counts = Counts(complete: nat, missingUpvf: nat, missingUpvc: nat, missingBoth: nat)

  /** `resultCounts`. */
  function ResultCounts(rs: seq<FileAnalysisResult>): Counts {
    Counts(|WithStatus(rs, Complete)|, |WithStatus(rs, MissingUpvf)|,
           |WithStatus(rs, MissingUpvc)|, |WithStatus(rs, MissingBoth)|)
  }

  /** The tallies of the records agree with the counters the analysis kept
      while building them, and add up to `totalLines`. */
  lemma ResultCountsMatchStats(column1Data: string, column2Data: string)
    requires Analyze(column1Data, column2Data).Some?
    ensures var a := Analyze(column1Data, column2Data).value;
      var c := ResultCounts(a.results);
      && c == Counts(a.stats.completeMatches, a.stats.missingUpvf, a.stats.missingUpvc, a.stats.missingBoth)
      && c.complete + c.missingUpvf + c.missingUpvc + c.missingBoth == a.stats.totalLines
  {
    var a := Analyze(column1Data, column2Data).value;
    WithStatusCounts(a.results, Complete);
    WithStatusCounts(a.results, MissingUpvf);
    WithStatusCounts(a.results, MissingUpvc);
    WithStatusCounts(a.results, MissingBoth);
    AnalyzeStats(column1Data, column2Data);
  }

  // ---------------------------------------------------------------------
  // Status filter
  // ---------------------------------------------------------------------

  datatype Filters = Filters(showComplete: bool, showMissingUpvf: bool, showMissingUpvc: bool, showMissingBoth: bool)

  const AllOn := Filters(true, true, true, true)

  /** The `switch` on the record's status. */
  function Shown(f: Filters, s: Status): bool {
    match s
    case Complete => f.showComplete
    case MissingUpvf => f.showMissingUpvf
    case MissingUpvc => f.showMissingUpvc
    case MissingBoth => f.showMissingBoth
  }

  /** `filteredResults`. */
  function FilteredResults(rs: seq<FileAnalysisResult>, f: Filters): (out: seq<FileAnalysisResult>)
    ensures |out| <= |rs|
  {
    if |rs| == 0 then []
    else FilteredResults(rs[..|rs| - 1], f) + (if Shown(f, rs[|rs| - 1].status) then [rs[|rs| - 1]] else [])
  }

  /** A record is kept exactly when it is one of the input records and its
      status is switched on. */
  lemma {:induction false} FilteredMembers(rs: seq<FileAnalysisResult>, f: Filters, r: FileAnalysisResult)
    ensures r in FilteredResults(rs, f) <==> r in rs && Shown(f, r.status)
  {
    if |rs| > 0 {
      var rs' := rs[..|rs| - 1];
      FilteredMembers(rs', f, r);
      assert rs == rs' + [rs[|rs| - 1]];
    }
  }

  /** The filter keeps the input order: filtering a concatenation
      concatenates the filtered parts. */
  lemma {:induction false} FilteredConcat(a: seq<FileAnalysisResult>, b: seq<FileAnalysisResult>, f: Filters)
    ensures FilteredResults(a + b, f) == FilteredResults(a, f) + FilteredResults(b, f)
  {
    if |b| > 0 {
      var b' := b[..|b| - 1];
      FilteredConcat(a, b', f);
      assert (a + b)[..|a + b| - 1] == a + b';
    } else {
      assert a + b == a;
    }
  }

  /** With every flag on nothing is filtered out. */
  lemma {:induction false} AllOnKeepsAll(rs: seq<FileAnalysisResult>)
    ensures FilteredResults(rs, AllOn) == rs
  {
    if |rs| > 0 {
      AllOnKeepsAll(rs[..|rs| - 1]);
    }
  }

  /** The number of records shown is the sum of the tallies switched on. */
  lemma {:induction false} FilteredCount(rs: seq<FileAnalysisResult>, f: Filters)
    ensures |FilteredResults(rs, f)|
      == (if f.showComplete then CountStatus(rs, Complete) else 0)
       + (if f.showMissingUpvf then CountStatus(rs, MissingUpvf) else 0)
       + (if f.showMissingUpvc then CountStatus(rs, MissingUpvc) else 0)
       + (if f.showMissingBoth then CountStatus(rs, MissingBoth) else 0)
  {
    if |rs| > 0 {
      FilteredCount(rs[..|rs| - 1], f);
    }
  }

  // ---------------------------------------------------------------------
  // CSV export
  // ---------------------------------------------------------------------

  /** The status as it is written in the export. */
  function StatusName(s: Status): string {
    match s
    case Complete => "complete"
    case MissingUpvf => "missing-upvf"
    case MissingUpvc => "missing-upvc"
    case MissingBoth => "missing-both"
  }

  /** Different statuses are written differently, and no name holds a CSV
      separator. */
  lemma StatusNameFacts(s: Status, t: Status)
    ensures s != t ==> StatusName(s) != StatusName(t)
    ensures ',' !in StatusName(s) && ';' !in StatusName(s) && '\n' !in StatusName(s)
  {
  }

  const HeaderFields: seq<string> := ["Line Number", "Prefix", "Status", "UPVF Files", "UPVC Files"]

  const Header: string := Join(HeaderFields, ",")

  /** The header splits back into its five column titles, one for each field
      of a record's line, and holds no newline. */
  lemma HeaderColumns()
    ensures Split(Header, ',') == HeaderFields
    ensures '\n' !in Header
  {
    assert forall k :: 0 <= k < |HeaderFields| ==> ',' !in HeaderFields[k] && '\n' !in HeaderFields[k];
    SplitJoin(HeaderFields, ',');
    JoinKeepsOut(HeaderFields, ",", '\n');
  }

  /** The five fields of a record's line. */
  function CsvFields(r: FileAnalysisResult): seq<string> {
    [r.lineNumber, r.extractedPrefix, StatusName(r.status), Join(r.upvfFiles, ";"), Join(r.upvcFiles, ";")]
  }

  function CsvRow(r: FileAnalysisResult): string {
    Join(CsvFields(r), ",")
  }

  function CsvRows(rs: seq<FileAnalysisResult>): (rows: seq<string>)
    ensures |rows| == |rs|
  {
    seq(|rs|, k requires 0 <= k < |rs| => CsvRow(rs[k]))
  }

  /** `csvContent` of `downloadResults`. */
  function CsvContent(rs: seq<FileAnalysisResult>, f: Filters): string {
    Join([Header] + CsvRows(FilteredResults(rs, f)), "\n")
  }

  /** `c` occurs in no field of the record, nor in any of its filenames. */
  predicate Avoids(r: FileAnalysisResult, c: char) {
    && c !in r.lineNumber && c !in r.extractedPrefix
    && (forall i :: 0 <= i < |r.upvfFiles| ==> c !in r.upvfFiles[i])
    && (forall i :: 0 <= i < |r.upvcFiles| ==> c !in r.upvcFiles[i])
  }

  /** A record with no newline gives one line with no newline. */
  lemma CsvRowAvoids(r: FileAnalysisResult, c: char)
    requires Avoids(r, c) && c != ',' && c != ';'
    requires c !in StatusName(r.status)
    ensures c !in CsvRow(r)
  {
    JoinKeepsOut(r.upvfFiles, ";", c);
    JoinKeepsOut(r.upvcFiles, ";", c);
    JoinKeepsOut(CsvFields(r), ",", c);
  }

  /** When no record holds a newline, the export splits back into the header
      line followed by one line per shown record, in order. */
  lemma CsvLines(rs: seq<FileAnalysisResult>, f: Filters)
    requires forall k :: 0 <= k < |rs| ==> Avoids(rs[k], '\n')
    ensures Split(CsvContent(rs, f), '\n') == [Header] + CsvRows(FilteredResults(rs, f))
  {
    var shown := FilteredResults(rs, f);
    var lines := [Header] + CsvRows(shown);
    forall k | 0 <= k < |lines| ensures '\n' !in lines[k] {
      if k > 0 {
        var r := shown[k - 1];
        FilteredMembers(rs, f, r);
        var i :| 0 <= i < |rs| && rs[i] == r;
        StatusNameFacts(r.status, r.status);
        CsvRowAvoids(r, '\n');
        assert lines[k] == CsvRow(r);
      } else {
        HeaderColumns();
        assert lines[k] == Header;
      }
    }
    SplitJoin(lines, '\n');
  }

  /** When no field holds a comma or a semicolon, a line splits back into
      its five fields, and a non-empty file list splits back into its
      filenames. */
  lemma CsvRowFields(r: FileAnalysisResult)
    requires Avoids(r, ',') && Avoids(r, ';')
    ensures Split(CsvRow(r), ',') == CsvFields(r)
    ensures r.upvfFiles != [] ==> Split(CsvFields(r)[3], ';') == r.upvfFiles
    ensures r.upvcFiles != [] ==> Split(CsvFields(r)[4], ';') == r.upvcFiles
  {
    StatusNameFacts(r.status, r.status);
    JoinKeepsOut(r.upvfFiles, ";", ',');
    JoinKeepsOut(r.upvcFiles, ";", ',');
    SplitJoin(CsvFields(r), ',');
    if r.upvfFiles != [] {
      SplitJoin(r.upvfFiles, ';');
    }
    if r.upvcFiles != [] {
      SplitJoin(r.upvcFiles, ';');
    }
  }

  /** The export of an analysis has one line more than there are shown
      records: the header. */
  lemma AnalysisCsvLines(column1Data: string, column2Data: string, f: Filters)
    requires Analyze(column1Data, column2Data).Some?
    ensures var rs := Analyze(column1Data, column2Data).value.results;
      Split(CsvContent(rs, f), '\n') == [Header] + CsvRows(FilteredResults(rs, f))
  {
    var rs := Analyze(column1Data, column2Data).value.results;
    forall k | 0 <= k < |rs| ensures Avoids(rs[k], '\n') {
      RecordHasNoNewline(column1Data, column2Data, k);
    }
    CsvLines(rs, f);
  }
}

=== FILE: scenarios.dfy ===
/** Concrete runs of the analysis: the first-match rule, the sample data the
    page loads, a run where identifiers collapse by prefix, and a malformed
    filename. Each run is proved from the general lemmas of `Matcher`, one
    small fact at a time. */
module Scenarios {
  import opened JsString
  import opened Matcher
  import opened Loader

  // ---------------------------------------------------------------------
  // Helpers shared by the runs
  // ---------------------------------------------------------------------

  /** Parsed identifier lines are non-empty and trimmed. */
  predicate Clean(lines: seq<string>) {
    forall k :: 0 <= k < |lines| ==> lines[k] != [] && IsTrimmed(lines[k]) && '\n' !in lines[k]
  }

  /** On clean lines the processed entries are the lines with their prefixes. */
  lemma ProcessedOfClean(lines: seq<string>, i: nat)
    requires Clean(lines) && i < |lines|
    ensures |Processed(lines)| == |lines|
    ensures Processed(lines)[i] == LineEntry(lines[i], Prefix(lines[i]))
  {
    BlankLinesNeverCounted(lines);
    EntryAt(lines, i);
  }

  /** An identifier shaped `ddd-ddd-ddd` has the prefix `ddd-ddd-`. */
  lemma TriplePrefix(id: string)
    requires |id| == 11 && id[3] == '-' && id[7] == '-'
    requires forall m :: 0 <= m < 7 && m != 3 ==> id[m] != '-'
    ensures Prefix(id) == id[..8]
  {
    PrefixAtSecondHyphen(id, 3, 7);
  }

  /** A joined text starts with the first piece. */
  lemma JoinStart(xs: seq<string>, sep: string)
    requires |xs| > 0 && xs[0] != []
    ensures |Join(xs, sep)| > 0 && Join(xs, sep)[0] == xs[0][0]
  {
    if |xs| > 1 {
      assert Join(xs, sep) == xs[0] + (sep + Join(xs[1..], sep));
    }
  }

  /** A text whose first line is clean is not blank. */
  lemma NotBlank(lines: seq<string>)
    requires |lines| > 0 && Clean(lines)
    ensures !AllWhitespace(Join(lines, "\n"))
  {
    JoinStart(lines, "\n");
  }

  // ---------------------------------------------------------------------
  // First match wins
  // ---------------------------------------------------------------------

  lemma ShortIdsClean(ids: seq<string>)
    requires ids == ["1", "10-x"]
    ensures Clean(ids)
  {
  }

  lemma ShortPrefixes()
    ensures Prefix("1") == "1-" && Prefix("10-x") == "10-x-"
  {
    PrefixOfOneHyphen("1");
    PrefixOfOneHyphen("10-x");
    assert "1" + "-" == "1-";
    assert "10-x" + "-" == "10-x-";
  }

  lemma ShortProcessed(ids: seq<string>)
    requires ids == ["1", "10-x"]
    ensures Processed(ids) == [LineEntry("1", "1-"), LineEntry("10-x", "10-x-")]
  {
    ShortIdsClean(ids);
    ProcessedOfClean(ids, 0);
    ProcessedOfClean(ids, 1);
    ShortPrefixes();
  }

  lemma ShortUnique()
    ensures Unique(Processed(["1", "10-x"])) == [LineEntry("1", "1-"), LineEntry("10-x", "10-x-")]
  {
    ShortProcessed(["1", "10-x"]);
    var es := [LineEntry("1", "1-"), LineEntry("10-x", "10-x-")];
    KeepFirstOfDistinct(es, 2);
    assert es[..2] == es;
  }

  lemma ShortRoute()
    ensures RouteOf([LineEntry("1", "1-"), LineEntry("10-x", "10-x-")], "10-x.upvf") == ToBucket(Upvf, 0)
  {
    ClassifyComplete("10-x", ".upvf", Upvf);
    assert "10-x" + ".upvf" == "10-x.upvf";
    assert Key("1-") == "1";
  }

  /** Identifier `1` comes first, so its key `1` captures `10-x.upvf`
      although identifier `10-x` names that file exactly: matching takes the
      first retained identifier in input order, not the longest key. */
  lemma FirstMatchWins()
    ensures var a := AnalyzeLines(["1", "10-x"], ["10-x.upvf"]);
      && |a.results| == 2
      && a.results[0].upvfFiles == ["10-x.upvf"] && a.results[0].status == MissingUpvc
      && a.results[1].upvfFiles == [] && a.results[1].status == MissingBoth
      && a.orphans == []
  {
    var ids := ["1", "10-x"];
    var files := ["10-x.upvf"];
    ShortUnique();
    ShortRoute();
    assert files[..0] == [];
    RecordAt(ids, files, 0);
    RecordAt(ids, files, 1);
  }

  // ---------------------------------------------------------------------
  // The sample data
  // ---------------------------------------------------------------------

  /** The identifier lines `loadSampleData` puts in the first column. */
  const SampleIds: seq<string> := ["001-001-001", "001-001-002", "001-001-003", "002-001-001", "002-001-002", "003-001-001"]

  /** The filename lines it puts in the second column. */
  const SampleFiles: seq<string> := [
    SampleIds[0] + ".upvf", SampleIds[0] + ".upvc", SampleIds[1] + ".upvf",
    SampleIds[3] + ".upvf", SampleIds[3] + ".upvc", SampleIds[5] + ".upvc"]

  const SampleEntries: seq<LineEntry> := [
    LineEntry("001-001-001", "001-001-"), LineEntry("001-001-002", "001-001-"), LineEntry("001-001-003", "001-001-"),
    LineEntry("002-001-001", "002-001-"), LineEntry("002-001-002", "002-001-"), LineEntry("003-001-001", "003-001-")]

  const SampleUnique: seq<LineEntry> := [
    LineEntry("001-001-001", "001-001-"), LineEntry("002-001-001", "002-001-"), LineEntry("003-001-001", "003-001-")]

  lemma SampleIdsClean(ids: seq<string>)
    requires ids == SampleIds
    ensures Clean(ids)
  {
  }

  lemma SampleFilesClean(files: seq<string>)
    requires files == SampleFiles
    ensures Clean(files)
  {
  }

  lemma SamplePrefixes()
    ensures Prefix("001-001-001") == "001-001-" && Prefix("001-001-002") == "001-001-"
    ensures Prefix("001-001-003") == "001-001-" && Prefix("002-001-001") == "002-001-"
    ensures Prefix("002-001-002") == "002-001-" && Prefix("003-001-001") == "003-001-"
  {
    TriplePrefix("001-001-001");
    TriplePrefix("001-001-002");
    TriplePrefix("001-001-003");
    TriplePrefix("002-001-001");
    TriplePrefix("002-001-002");
    TriplePrefix("003-001-001");
  }

  lemma SampleEntryAt(ids: seq<string>, es: seq<LineEntry>, i: nat)
    requires ids == SampleIds && es == SampleEntries && i < 6
    ensures |Processed(ids)| == 6 && Processed(ids)[i] == es[i]
  {
    SampleIdsClean(ids);
    SamplePrefixes();
    ProcessedOfClean(ids, i);
  }

  lemma SampleProcessed(ids: seq<string>)
    requires ids == SampleIds
    ensures Processed(ids) == SampleEntries
  {
    var es := SampleEntries;
    SampleEntryAt(ids, es, 0);
    forall i | 0 <= i < 6 ensures Processed(ids)[i] == es[i] {
      SampleEntryAt(ids, es, i);
    }
  }

  lemma SampleDedup(es: seq<LineEntry>)
    requires es == SampleEntries
    ensures Unique(es) == SampleUnique
  {
    assert FindIndex(es, "001-001-") == 0;
    assert FindIndex(es, "002-001-") == 3;
    assert FindIndex(es, "003-001-") == 5;
    assert KeepFirst(es, 1) == [es[0]];
    assert KeepFirst(es, 2) == [es[0]];
    assert KeepFirst(es, 3) == [es[0]];
    assert KeepFirst(es, 4) == [es[0], es[3]];
    assert KeepFirst(es, 5) == [es[0], es[3]];
    assert KeepFirst(es, 6) == [es[0], es[3], es[5]];
  }

  /** A filename made of a base and an extension goes to the bucket of the
      first entry whose key starts the base. */
  lemma RouteTo(unique: seq<LineEntry>, base: string, suffix: string, kind: Kind, m: nat)
    requires base != [] && forall i :: 0 <= i < |base| ==> !IsLineTerminator(base[i])
    requires Lower(suffix) == "." + Extension(kind)
    requires FirstMatch(unique, base) == Some(m)
    ensures RouteOf(unique, base + suffix) == ToBucket(kind, m)
  {
    ClassifyComplete(base, suffix, kind);
  }

  /** The index of the retained entry whose group each sample identifier is in. */
  const SampleGroup: seq<nat> := [0, 0, 0, 1, 1, 2]

  lemma SampleMatch(u: seq<LineEntry>, ids: seq<string>, k: nat)
    requires u == SampleUnique && ids == SampleIds && k < 6
    ensures FirstMatch(u, ids[k]) == Some(SampleGroup[k])
  {
    var id := ids[k];
    assert Key(u[0].prefix) == "001-001";
    assert Key(u[1].prefix) == "002-001";
    assert Key(u[2].prefix) == "003-001";
    assert u[1..][1..] == [u[2]];
    if k < 3 {
      assert id[..7] == "001-001";
    } else if k < 5 {
      assert id[2] == '2' && id[..7] == "002-001";
    } else {
      assert id[2] == '3' && id[..7] == "003-001";
    }
  }

  /** Where each sample filename goes. */
  const SampleRouting: seq<Route> := [
    ToBucket(Upvf, 0), ToBucket(Upvc, 0), ToBucket(Upvf, 0), ToBucket(Upvf, 1), ToBucket(Upvc, 1), ToBucket(Upvc, 2)]

  lemma SampleIdsPlain(ids: seq<string>)
    requires ids == SampleIds
    ensures forall k, j :: 0 <= k < |ids| && 0 <= j < |ids[k]| ==> !IsLineTerminator(ids[k][j])
    ensures forall k :: 0 <= k < |ids| ==> |ids[k]| == 11
  {
  }

  lemma SampleRoute(u: seq<LineEntry>, files: seq<string>, i: nat)
    requires u == SampleUnique && files == SampleFiles && i < 6
    ensures RouteOf(u, files[i]) == SampleRouting[i]
  {
    var ids := SampleIds;
    var k := [0, 0, 1, 3, 3, 5][i];
    var r := SampleRouting[i];
    var suffix := if r.kind == Upvf then ".upvf" else ".upvc";
    assert files[i] == ids[k] + suffix;
    SampleMatch(u, ids, k);
    SampleIdsPlain(ids);
    RouteTo(u, ids[k], suffix, r.kind, r.index);
  }

  /** The filenames whose planned route is the `kind` bucket of entry `j`. */
  function Picked(files: seq<string>, routes: seq<Route>, kind: Kind, j: nat): seq<string>
    requires |routes| == |files|
  {
    if |files| == 0 then []
    else
      Picked(files[..|files| - 1], routes[..|routes| - 1], kind, j)
        + (if routes[|routes| - 1] == ToBucket(kind, j) then [files[|files| - 1]] else [])
  }

  /** When every filename takes its planned route and the retained prefixes
      are distinct, a bucket holds exactly the filenames planned for it. */
  lemma {:induction false} BucketOfRoutes(u: seq<LineEntry>, files: seq<string>, routes: seq<Route>, kind: Kind, j: nat)
    requires |routes| == |files| && j < |u|
    requires forall i :: 0 <= i < |files| ==> RouteOf(u, files[i]) == routes[i]
    requires forall a, b :: 0 <= a < b < |u| ==> u[a].prefix != u[b].prefix
    ensures Bucket(u, files, kind, u[j].prefix) == Picked(files, routes, kind, j)
  {
    if |files| > 0 {
      var n := |files| - 1;
      BucketOfRoutes(u, files[..n], routes[..n], kind, j);
      var r := routes[n];
      assert RouteOf(u, files[n]) == r;
      if r.ToBucket? && r.kind == kind && r.index != j {
        assert u[r.index].prefix != u[j].prefix;
      }
    }
  }

  lemma PickedStep(files: seq<string>, routes: seq<Route>, kind: Kind, j: nat, n: nat)
    requires |routes| == |files| && n < |files|
    ensures Picked(files[..n + 1], routes[..n + 1], kind, j)
      == Picked(files[..n], routes[..n], kind, j) + (if routes[n] == ToBucket(kind, j) then [files[n]] else [])
  {
    assert files[..n + 1][..n] == files[..n];
    assert routes[..n + 1][..n] == routes[..n];
  }

  lemma SampleUpvfBuckets(files: seq<string>, j: nat)
    requires |files| == 6
    ensures j == 0 ==> Picked(files, SampleRouting, Upvf, j) == [files[0], files[2]]
    ensures j == 1 ==> Picked(files, SampleRouting, Upvf, j) == [files[3]]
    ensures j != 0 && j != 1 ==> Picked(files, SampleRouting, Upvf, j) == []
  {
    var rs := SampleRouting;
    assert files[..0] == [] && rs[..0] == [];
    PickedStep(files, rs, Upvf, j, 0);
    PickedStep(files, rs, Upvf, j, 1);
    PickedStep(files, rs, Upvf, j, 2);
    PickedStep(files, rs, Upvf, j, 3);
    PickedStep(files, rs, Upvf, j, 4);
    PickedStep(files, rs, Upvf, j, 5);
    assert files[..6] == files && rs[..6] == rs;
  }

  lemma SampleUpvcBuckets(files: seq<string>, j: nat)
    requires |files| == 6
    ensures j == 0 ==> Picked(files, SampleRouting, Upvc, j) == [files[1]]
    ensures j == 1 ==> Picked(files, SampleRouting, Upvc, j) == [files[4]]
    ensures j == 2 ==> Picked(files, SampleRouting, Upvc, j) == [files[5]]
    ensures j > 2 ==> Picked(files, SampleRouting, Upvc, j) == []
  {
    var rs := SampleRouting;
    assert files[..0] == [] && rs[..0] == [];
    PickedStep(files, rs, Upvc, j, 0);
    PickedStep(files, rs, Upvc, j, 1);
    PickedStep(files, rs, Upvc, j, 2);
    PickedStep(files, rs, Upvc, j, 3);
    PickedStep(files, rs, Upvc, j, 4);
    PickedStep(files, rs, Upvc, j, 5);
    assert files[..6] == files && rs[..6] == rs;
  }

  /** Filenames that all reach a bucket leave no orphan and no malformed entry. */
  lemma {:induction false} AllFiled(u: seq<LineEntry>, files: seq<string>)
    requires forall i :: 0 <= i < |files| ==> RouteOf(u, files[i]).ToBucket?
    ensures Orphans(u, files) == [] && MalformedCount(files) == 0
  {
    if |files| > 0 {
      AllFiled(u, files[..|files| - 1]);
    }
  }

  lemma SampleRetained(ids: seq<string>)
    requires ids == SampleIds
    ensures Unique(Processed(ids)) == SampleUnique
  {
    SampleProcessed(ids);
    SampleDedup(SampleEntries);
  }

  lemma SampleRoutes(u: seq<LineEntry>, files: seq<string>)
    requires u == SampleUnique && files == SampleFiles
    ensures forall i :: 0 <= i < |files| ==> RouteOf(u, files[i]) == SampleRouting[i]
    ensures forall a, b :: 0 <= a < b < |u| ==> u[a].prefix != u[b].prefix
  {
    forall i | 0 <= i < |files| ensures RouteOf(u, files[i]) == SampleRouting[i] {
      SampleRoute(u, files, i);
    }
  }

  lemma SampleAllFiled(u: seq<LineEntry>, files: seq<string>)
    requires u == SampleUnique && files == SampleFiles
    ensures Orphans(u, files) == [] && MalformedCount(files) == 0
  {
    forall i | 0 <= i < |files| ensures RouteOf(u, files[i]).ToBucket? {
      SampleRoute(u, files, i);
    }
    AllFiled(u, files);
  }

  /** The three records of the sample run. */
  const SampleResults: seq<FileAnalysisResult> := [
    FileAnalysisResult("001-001-001", "001-001-", true, true, Complete, [SampleFiles[0], SampleFiles[2]], [SampleFiles[1]]),
    FileAnalysisResult("002-001-001", "002-001-", true, true, Complete, [SampleFiles[3]], [SampleFiles[4]]),
    FileAnalysisResult("003-001-001", "003-001-", false, true, MissingUpvf, [], [SampleFiles[5]])]

  lemma SampleRecord(ids: seq<string>, files: seq<string>, k: nat)
    requires ids == SampleIds && files == SampleFiles && k < 3
    ensures |AnalyzeLines(ids, files).results| == 3
    ensures AnalyzeLines(ids, files).results[k] == SampleResults[k]
  {
    var u := SampleUnique;
    SampleRetained(ids);
    SampleRoutes(u, files);
    RecordAt(ids, files, k);
    BucketOfRoutes(u, files, SampleRouting, Upvf, k);
    BucketOfRoutes(u, files, SampleRouting, Upvc, k);
    SampleUpvfBuckets(files, k);
    SampleUpvcBuckets(files, k);
  }

  lemma SampleRecords(ids: seq<string>, files: seq<string>)
    requires ids == SampleIds && files == SampleFiles
    ensures AnalyzeLines(ids, files).results == SampleResults
  {
    var rs := AnalyzeLines(ids, files).results;
    SampleRecord(ids, files, 0);
    SampleRecord(ids, files, 1);
    SampleRecord(ids, files, 2);
    SameThree(rs, SampleResults);
  }

  /** Three-element sequences are equal when they agree at each index; stating
      this once keeps the comparison of whole records out of `SampleRecords`. */
  lemma SameThree<T>(s: seq<T>, t: seq<T>)
    requires |s| == 3 && |t| == 3 && s[0] == t[0] && s[1] == t[1] && s[2] == t[2]
    ensures s == t
  {
  }

  lemma CountThree(rs: seq<FileAnalysisResult>, s: Status)
    requires |rs| == 3
    ensures CountStatus(rs, s)
      == (if rs[0].status == s then 1 else 0) + (if rs[1].status == s then 1 else 0) + (if rs[2].status == s then 1 else 0)
  {
    assert rs[..2][..1] == rs[..1] && rs[..1][..0] == [];
    assert CountStatus(rs[..1], s) == (if rs[0].status == s then 1 else 0);
  }

  lemma SampleCounts(rs: seq<FileAnalysisResult>)
    requires rs == SampleResults
    ensures CountStatus(rs, Complete) == 2 && CountStatus(rs, MissingUpvf) == 1
    ensures CountStatus(rs, MissingUpvc) == 0 && CountStatus(rs, MissingBoth) == 0
  {
    CountThree(rs, Complete);
    CountThree(rs, MissingUpvf);
    CountThree(rs, MissingUpvc);
    CountThree(rs, MissingBoth);
  }

  lemma SampleAnalysis(ids: seq<string>, files: seq<string>)
    requires ids == SampleIds && files == SampleFiles
    ensures AnalyzeLines(ids, files) == Analysis(SampleResults, [], AnalysisStats(3, 2, 1, 0, 0, 0, 3, 0, 0))
  {
    SampleRecords(ids, files);
    SampleCounts(SampleResults);
    SampleRetained(ids);
    assert |Processed(ids)| == 6 by {
      SampleProcessed(ids);
    }
    SampleAllFiled(SampleUnique, files);
    assert BlankCount(ids) == 0 by {
      SampleIdsClean(ids);
      BlankLinesNeverCounted(ids);
    }
  }

  /** The sample data of `loadSampleData`, as the page analyses it: the
      identifiers that agree up to their second hyphen collapse, leaving
      three records, `001-001-001` and `002-001-001` complete and
      `003-001-001` missing its `.upvf` file; three lines are counted as
      duplicates and no filename is an orphan or malformed. */
  lemma SampleRun()
    ensures Analyze(Join(SampleIds, "\n"), Join(SampleFiles, "\n"))
      == Some(Analysis(SampleResults, [], AnalysisStats(
           totalLines := 3, completeMatches := 2, missingUpvf := 1, missingUpvc := 0, missingBoth := 0,
           orphanFiles := 0, duplicateLines := 3, blankLines := 0, malformedEntries := 0)))
  {
    var ids, files := SampleIds, SampleFiles;
    SampleIdsClean(ids);
    SampleFilesClean(files);
    ParseDataOfJoin(ids);
    ParseDataOfJoin(files);
    NotBlank(ids);
    NotBlank(files);
    SampleAnalysis(ids, files);
  }

  // ---------------------------------------------------------------------
  // A malformed filename
  // ---------------------------------------------------------------------

  lemma ReadmeMalformed(f: string)
    requires f == "readme.txt"
    ensures Classify(f) == Malformed
  {
    assert f[|f| - 5..] == "e.txt";
    assert Lower("e.txt") != ".upvf" && Lower("e.txt") != ".upvc" by {
      assert Lower("e.txt")[0] == 'e';
    }
  }

  /** `readme.txt` has neither extension: it is counted as malformed and
      lands in no bucket and not among the orphans. */
  lemma MalformedIgnored()
    ensures var a := AnalyzeLines(["a"], ["readme.txt"]);
      && |a.results| == 1
      && a.results[0].upvfFiles == [] && a.results[0].upvcFiles == []
      && a.orphans == []
      && a.stats.malformedEntries == 1
  {
    var ids, files := ["a"], ["readme.txt"];
    ReadmeMalformed(files[0]);
    assert files[..0] == [];
    OneRetained(ids);
    RecordAt(ids, files, 0);
  }

  lemma OneRetained(ids: seq<string>)
    requires ids == ["a"]
    ensures |Unique(Processed(ids))| == 1
  {
    assert Clean(ids);
    ProcessedOfClean(ids, 0);
    KeepFirstOfDistinct(Processed(ids), 1);
    assert Processed(ids)[..1] == Processed(ids);
  }

  // ---------------------------------------------------------------------
  // Loading a file
  // ---------------------------------------------------------------------

  lemma CsvName()
    ensures IsCsvName("data.csv")
  {
    assert Lower("data.csv")[5..] == "csv";
  }

  lemma CommaCells(line: string, a: string, b: string)
    requires line == a + "," + b && a != [] && b != []
    requires ',' !in a && ',' !in b && IsTrimmed(a) && IsTrimmed(b)
    ensures Cells(line) == [a, b]
  {
    SplitJoin([a, b], ',');
    assert Join([a, b], ",") == line;
    TrimOfTrimmed(a);
    TrimOfTrimmed(b);
  }

  lemma OneCell(line: string)
    requires line != [] && ',' !in line && IsTrimmed(line)
    ensures Cells(line) == [line]
  {
    SplitNoSep(line, ',');
    TrimOfTrimmed(line);
  }

  lemma TwoLines(content: string, l0: string, l1: string)
    requires content == l0 + "\n" + l1 && Clean([l0, l1])
    ensures ParseData(content) == [l0, l1]
  {
    ParseDataOfJoin([l0, l1]);
  }

  /** Only the first row's width is checked: a later row with a single cell
      still gives its first cell and simply has no second one. */
  lemma CsvChecksFirstRowOnly()
    ensures ParseFileContent("a,b\nc", "data.csv") == Loaded("a\nc", "b")
  {
    CsvName();
    TwoLines("a,b\nc", "a,b", "c");
    UnevenRows(["a,b", "c"]);
    UnevenColumns([["a", "b"], ["c"]]);
  }

  lemma UnevenRows(lines: seq<string>)
    requires lines == ["a,b", "c"]
    ensures CellRows(lines) == [["a", "b"], ["c"]]
  {
    CommaCells("a,b", "a", "b");
    OneCell("c");
  }

  lemma UnevenColumns(rows: seq<seq<string>>)
    requires rows == [["a", "b"], ["c"]]
    ensures Join(Column(rows, 0), "\n") == "a\nc" && Join(Column(rows, 1), "\n") == "b"
  {
    assert rows[..1] == [["a", "b"]];
    assert Column(rows, 0) == ["a", "c"];
    assert Column(rows, 1) == ["b"];
  }

  /** A CSV file whose first line has no comma is refused. */
  lemma CsvNeedsTwoColumns()
    ensures ParseFileContent("a\nb,c", "data.csv") == ParseError(TooFewColumns)
  {
    CsvName();
    TwoLines("a\nb,c", "a", "b,c");
  }

  /** The split of a text that starts with a word character continues its first piece. */
  lemma SplitWsWord(c: char, s: string)
    requires !IsWhitespace(c)
    ensures SplitWs([c] + s) == [[c] + SplitWs(s)[0]] + SplitWs(s)[1..]
  {
    assert ([c] + s)[1..] == s;
  }

  /** The split of a text that starts with whitespace opens a new piece after the run. */
  lemma SplitWsSpace(c: char, s: string)
    requires IsWhitespace(c)
    ensures SplitWs([c] + s) == [""] + SplitWs(TrimStart(s))
  {
    assert ([c] + s)[1..] == s;
  }

  lemma SpacedTail()
    ensures SplitWs(" y z") == ["", "y", "z"]
  {
    SplitWsWord('z', "");
    assert ['z'] + "" == "z";
    assert SplitWs("z") == ["z"];
    assert TrimStart("z") == "z";
    SplitWsSpace(' ', "z");
    assert [' '] + "z" == " z";
    assert SplitWs(" z") == ["", "z"];
    SplitWsWord('y', " z");
    assert ['y'] + " z" == "y z" && ['y'] + "" == "y";
    assert SplitWs(" z")[1..] == ["z"];
    assert SplitWs("y z") == ["y", "z"];
    assert TrimStart("y z") == "y z";
    SplitWsSpace(' ', "y z");
    assert [' '] + "y z" == " y z";
  }

  lemma SpacedWords(line: string)
    requires line == "x y z"
    ensures Words(line) == ["x", "y", "z"]
  {
    SpacedTail();
    SplitWsWord('x', " y z");
    assert line == ['x'] + " y z" && ['x'] + "" == "x";
    assert SplitWs(" y z")[1..] == ["y", "z"];
    assert SplitWs(line) == ["x", "y", "z"];
  }

  lemma SingleWord(line: string)
    requires line == "w"
    ensures Words(line) == ["w", ""]
  {
    SplitWsWord('w', "");
    assert line == ['w'] + "";
  }

  lemma TextRows(lines: seq<string>)
    requires lines == ["x y z", "w"]
    ensures WordRows(lines) == [["x", "y", "z"], ["w", ""]]
  {
    SpacedWords(lines[0]);
    SingleWord(lines[1]);
  }

  lemma WordColumns(rows: seq<seq<string>>)
    requires rows == [["x", "y", "z"], ["w", ""]]
    ensures Join(Column(rows, 0), "\n") == "x\nw" && Join(Column(rows, 1), "\n") == "y"
  {
    assert rows[..1] == [["x", "y", "z"]];
    assert Column(rows, 0) == ["x", "w"];
    assert Column(rows, 1) == ["y"];
  }

  /** A text that contains `t` holds the first character of `t`. */
  lemma {:induction false} ContainsFirst(s: string, t: string)
    requires t != [] && Contains(s, t)
    ensures t[0] in s
    decreases |s|
  {
    if s[..|t|] != t {
      ContainsFirst(s[1..], t);
    }
  }

  lemma TextName()
    ensures !IsCsvName("notes.txt")
  {
    var l := Lower("notes.txt");
    assert 'c' !in l;
    if Contains(l, "csv") {
      ContainsFirst(l, "csv");
    }
  }

  /** Outside the CSV branch each line is cut at whitespace runs: words after
      the second are ignored, and a one-word line gives no second entry. */
  lemma TextTakesTwoWords()
    ensures ParseFileContent("x y z\nw", "notes.txt") == Loaded("x\nw", "y")
  {
    TextName();
    TwoLines("x y z\nw", "x y z", "w");
    TextRows(["x y z", "w"]);
    WordColumns([["x", "y", "z"], ["w", ""]]);
  }
}
